=== FILE: README.md ===
# Valet-parking occupancy grids, modelled in Dafny

The valet-parking scripts build 2-D occupancy grids of a CARLA parking lot.
They do it in several ways:

- They rasterise the level's wall and road-line bounding boxes into a
  `grid_size x grid_size` grid, either OR-merged into a 0/1 grid or marked
  with values 1 (static) and 2 (ego).
- They draw box outlines into a 3-channel image.
- They threshold a semantic-segmentation camera frame into a 0/1 obstacle
  mask.
- They probe the environment with a collision sensor.

The grids are then turned into `ox`/`oy` obstacle lists for a planner, or
animated in a window that follows the ego vehicle.

This project models the grid bookkeeping these scripts share:

- `Coords`: the world-to-grid index mapping `int(center + v / cell_size)`,
  with `center = grid_size // 2`. Python's `int()` truncates toward zero,
  and this is modelled exactly.
- `Boxes`: oriented-box corners, with the yaw given as a `(cos, sin)` pair,
  and their grid cells.
- `ParkingLines`: splitting a road-line box into lines spaced 2.5 m apart.
- `LegacyGrids`: the three outline generators.
- `OrCompositor`: the OR-merge compositor.
- `MarkCompositor`: the value-overwrite compositor and its colour map.
- `ObstacleList`: the row-major obstacle-list scan.
- `Viewport`: the animation's viewport window.
- `SemanticMask`: the semantic tag mask and the alpha drop.
- `CameraSlot`: the single-slot camera queue with its update tick, as a
  sequential state machine.
- `Collision`: the collision detector and its probe scan.

Grids are `seq<seq<int>>` indexed `g[y][x]` (row `y`, column `x`). Boxes use
exact reals.

Some things the scripts call are replaced by parameters:

- OpenCV rasterisation. `cv2.fillPoly` becomes `fill: seq<Cell> -> set<Cell>`.
  `cv2.polylines` and `cv2.rectangle` become `draw`. `cv2.addWeighted`
  becomes `blendSemantic` and `blendObstacle`.
- CARLA's palette conversion becomes `convert`.

The model fixes which polygons, rectangles and frames are handed to these
calls, and in what order.

Three behaviours of the code are easy to misread, and the model keeps them
as written:

- Indices are truncated (`int()`), not rounded.
- The camera queue's non-blocking `put` on a full slot raises `queue.Full`,
  so the INCOMING frame is lost and the oldest pending frame is kept. The
  latest frame does not win.
- `mark_bounding_box` compares the whole mask with `value`, so marking with
  value 0 would clear the entire grid (`MarkCompositor.MarkZeroClearsGrid`).
  The scripts only ever mark with 1 and 2.

## Model

| member | source | states |
|---|---|---|
| Coords.Trunc | occupation_grid_with_grid_generator/test2.py:52-53 | `int()` of a float truncates toward zero: non-negative values land in `[r, r+1)`, negative ones in `(r-1, r]` |
| Coords.Center | occupation_grid_with_grid_generator/test2.py:14 | `grid_size // 2` is the lower half: `2c <= n <= 2c + 1` |
| Coords.Clamp | occupation_grid_with_grid_generator/test.py:59-60 | `max(lo, min(v, hi))` lies in `[lo, hi]`, is `v` inside the range and the nearer bound outside it |
| Coords.ToIndex | occupation_grid_with_grid_generator/test2.py:52-53 | `int(center + v / cell_size)`: the index is the exact position truncated toward zero, `i <= exact < i + 1` when it is non-negative and `i - 1 < exact <= i` when it is negative |
| Coords.TruncTowardZero | occupation_grid_with_grid_generator/test2.py:52-53 | truncation never moves a value away from zero |
| Coords.TruncSmallNegative | occupation_grid_with_grid_generator/test2.py:52-53 | values in `(-1, 0)` map to index 0, where floor would give -1 |
| Coords.TruncMonotone | grid_generator/old/2d_grid.py:21-24 | truncation is monotone |
| Coords.ToIndexOfOrigin | occupation_grid_with_grid_generator/test2.py:52-53 | world coordinate 0 maps to the center index `grid_size // 2` |
| Coords.ToIndexMonotone | grid_generator/old/2d_grid.py:21-24 | for a positive cell size, a larger world coordinate never maps to a smaller index |
| Coords.ToIndexWithinOne | grid_generator/2d_grid_generator_main.py:81-82 | the index is within one cell of the exact position `center + v / cell_size` |
| Grid.Zeros | occupation_grid_with_grid_generator/test2.py:11 | `np.zeros((rows, cols))` has the requested shape and only zero cells |
| Grid.SetCell | occupation_grid_with_grid_generator/test.py:63 | `grid[y, x] = v` changes cell `(x, y)` (row y, column x) to `v` and no other cell |
| Grid.MaskOf | occupation_grid_with_grid_generator/test2.py:57-58 | the filled mask is `value` exactly on the footprint cells and 0 elsewhere, in the grid's shape |
| Boxes.Corners | grid_generator/2d_grid_generator_main.py:98-120 | exactly four corners (not eight), all at the center's z; corners 0/2 and 1/3 are symmetric about the center; edge 0-1 is `2 ex (cos, sin)`, edge 0-3 is `2 ey (-sin, cos)`, and edge 1-2 equals edge 0-3, so the corners wind round a parallelogram |
| Boxes.Place | grid_generator/2d_grid_generator_main.py:107-117 | the offset from the center is the local `(lx, ly)` rotated counter-clockwise by `(cos, sin)`: `(lx cos - ly sin, lx sin + ly cos)`; z is the center's; offset 0 gives the center; with no rotation it is a plain translation |
| Boxes.CornerCell | grid_generator/2d_grid_generator_main.py:80-83 | both axes use the truncating index mapping `Coords.ToIndex`, so the cell is within one cell of the exact position; the origin maps to `(grid_size // 2, grid_size // 2)` |
| Boxes.CornersAtYawZero | grid_generator/2d_grid_generator_main.py:109-117 | with cos 1 and sin 0 the corners are `center +- extent` in the order (-,-), (+,-), (+,+), (-,+) |
| Boxes.PlaceDistance | grid_generator/2d_grid_generator_main.py:109-110 | rotating by a unit (cos, sin) pair keeps a local point's squared distance from the center |
| Boxes.CornersOnCircle | grid_generator/2d_grid_generator_main.py:109-110 | if cos^2 + sin^2 = 1, every corner lies at squared distance `ex^2 + ey^2` from the center |
| Boxes.GridCorners | grid_generator/2d_grid_generator_main.py:79-83 | four grid corners in corner order, each the truncated mapping of the matching world corner |
| Boxes.GridCornersOrderedAtYawZero | grid_generator/old/2d_grid_test.py:63-67 | for an unrotated box with non-negative extents, corner 0 has the least and corner 2 the greatest indices, and the polygon is an axis-aligned rectangle |
| ParkingLines.LinePositions | grid_generator/2d_grid_generator_main.py:20-34 | the loop visits `start + 2.5 i`, all inside `[start, end)`, and stops at the first `n` with `start + 2.5 n >= end`; there are none when `end <= start` |
| ParkingLines.SegmentAlongY | grid_generator/2d_grid_generator_main.py:5-36 | line i is at `y = start_y + 2.5 i` within `[start_y, end_y)`, on the right column `x = location.x + (extent.x - 2.5)` at the box's z, with extent (2.5, 0.005, 0.01) and no rotation; their count is the least n reaching `end_y`, so there are none for a non-positive y extent |
| ParkingLines.SegmentAlongX | grid_generator/old/2d_grid_test.py:5-29 | line i is at `x = start_x + 2.5 i` within `[start_x, end_x)`, at the box's y and z, with extent (0.075, 0.1, 0.01); there are none for a non-positive x extent |
| LegacyGrids.BlankCanvas | grid_generator/2d_grid_generator_main.py:46 | the image starts as `grid_size x grid_size` black pixels of three channels |
| LegacyGrids.Paint | grid_generator/2d_grid_generator_main.py:67-86 | drawing no shapes leaves the image unchanged, one shape is one draw call, and shapes that draw nothing leave the image unchanged |
| LegacyGrids.PaintAppend | grid_generator/2d_grid_generator_main.py:67-86 | drawing a list of shapes then more shapes is drawing the concatenation, in order |
| LegacyGrids.AxisAlignedRect | grid_generator/old/2d_grid.py:18-28 | a box is drawn iff `x_min >= 0`, `x_max < grid_size`, `y_min >= 0` and `y_max < grid_size`, with min/max the truncated mappings of `location -+ extent` |
| LegacyGrids.DrawnRectInBounds | grid_generator/old/2d_grid.py:21-31 | for non-negative extents and a positive cell size, a drawn rectangle has `min <= max` on both axes and both corner cells inside the grid |
| LegacyGrids.DrawnRects | grid_generator/old/2d_grid.py:16-31 | every rectangle handed to `cv2.rectangle` lies inside the grid and comes from some box that passed the skip rule |
| LegacyGrids.DrawnRectsAppend | grid_generator/old/2d_grid.py:16-31 | one more box adds its rectangle at the end when it passes the skip rule, and nothing otherwise |
| LegacyGrids.AxisAlignedGrid | grid_generator/old/2d_grid.py:5-33 | `create_2d_grid` of the old generator: if every box is skipped, the result is the blank image |
| LegacyGrids.SkippedBoxLeavesGrid | grid_generator/old/2d_grid.py:27-31 | a skipped box leaves the image unchanged; a drawn box is drawn once, last |
| LegacyGrids.Polygons | grid_generator/old/2d_grid_test.py:51-70 | one closed polygon per box, in box order, made of the box's mapped corners |
| LegacyGrids.RoadLineGrid | grid_generator/old/2d_grid_test.py:32-72 | the old test generator draws only road lines: none give the blank image, one gives one polygon of that line's grid corners |
| LegacyGrids.RoadLineGridDrawsLines | grid_generator/old/2d_grid_test.py:51-70 | one more road line adds exactly its grid-corner polygon, drawn on top of the image of the earlier lines |
| LegacyGrids.RoadLineGridIgnoresWalls | grid_generator/old/2d_grid_test.py:40-48 | the old test generator's image does not depend on the walls, which are fetched but never drawn |
| LegacyGrids.WallOutlineGrid | grid_generator/2d_grid_generator_main.py:52-64 | the main generator fails (`IndexError` on `roadlines[5]`) iff there are at most five road lines; with enough road lines and no walls it returns the blank image |
| LegacyGrids.WallOutlineGridDrawsWalls | grid_generator/2d_grid_generator_main.py:64-86 | when it succeeds, one more wall adds exactly one more polygon, drawn last |
| ObstacleList.RowHitsSpec | occupation_grid_with_grid_generator/test.py:105-108 | the inner loop lists exactly the `v` cells of the row prefix, in increasing x |
| ObstacleList.HitsSpec | occupation_grid_with_grid_generator/test.py:104-108 | the outer loop lists a cell iff it holds `v` and lies in the scanned rows, in strictly row-major order |
| ObstacleList.SortedCard | occupation_grid_with_grid_generator/test.py:104-108 | a strictly row-major list has no duplicates, so its length is the size of its set |
| ObstacleList.HitsAreCellsWith | occupation_grid_with_grid_generator/test.py:104-108 | the full scan lists exactly the set of cells holding `v` |
| ObstacleList.Scan | occupation_grid_with_grid_generator/test.py:100-110 | `ox`, `oy` have equal length; each pair is a `v` cell; every `v` cell appears exactly once, in row-major order; the length is the number of `v` cells |
| ObstacleList.ObstacleLists | occupation_grid_with_grid_generator/test.py:100-110 | `get_obstacle_lists` lists exactly the cells equal to 1 (no other value), each once, row-major, with `ox` and `oy` of equal length |
| OrCompositor.OrMerge | occupation_grid_with_grid_generator/test.py:51 | `logical_or(...).astype(uint8)` is a 0/1 grid whose cell is 1 iff either input cell is non-zero |
| OrCompositor.MergeAll | occupation_grid_with_grid_generator/test.py:30-51 | merging the wall masks in order keeps the grid's shape |
| OrCompositor.MergeAllCells | occupation_grid_with_grid_generator/test.py:30-51 | after merging, a 0/1 grid stays 0/1 and a cell is 1 iff it was 1 before or some mask covers it |
| OrCompositor.MergeFromZeros | occupation_grid_with_grid_generator/test.py:17 | from the zero grid, a cell is 1 iff at least one wall mask covers it, and all cells are 0 or 1 |
| OrCompositor.MergeOrderIrrelevant | occupation_grid_with_grid_generator/test.py:30-51 | the merged grid depends only on which masks occur, not on their order or repetition |
| OrCompositor.MergeIdempotent | occupation_grid_with_grid_generator/test.py:51 | merging the same mask twice equals merging it once |
| OrCompositor.MergeMonotone | occupation_grid_with_grid_generator/test.py:51 | a cell that is 1 stays 1 under any further merges |
| OrCompositor.PointBoxFootprint | occupation_grid_with_grid_generator/test.py:37-48 | a zero-extent box is filled as the degenerate polygon whose four corners are all the cell of its location, whatever its yaw |
| OrCompositor.WallMasks | occupation_grid_with_grid_generator/test.py:46-48 | one mask per wall, non-zero exactly on that wall's filled footprint |
| OrCompositor.EgoCell | occupation_grid_with_grid_generator/test.py:54-60 | each axis is clamped on its own: an in-range index is kept, a negative one becomes 0, one past the grid becomes `grid_size - 1`; the cell is always inside the grid |
| OrCompositor.WallGrid | occupation_grid_with_grid_generator/test.py:17-51 | after the wall loop the grid is 0/1 and a cell is 1 iff some wall footprint covers it |
| OrCompositor.ObstacleGrid | occupation_grid_with_grid_generator/test.py:15-65 | the result is 0/1; a cell is 1 iff it is the ego cell or covered by a wall; the ego write sets the ego cell and changes no other cell |
| MarkCompositor.Mark | occupation_grid_with_grid_generator/test2.py:56-61 | for a non-zero value, footprint cells become `value` and every other cell is unchanged |
| MarkCompositor.MarkZeroClearsGrid | occupation_grid_with_grid_generator/test2.py:57-61 | with value 0 the mask test matches every cell, so the whole grid is cleared |
| MarkCompositor.MarkIdempotent | occupation_grid_with_grid_generator/test2.py:61 | marking the same footprint with the same value twice equals marking it once |
| MarkCompositor.StaticGrid | occupation_grid_with_grid_generator/test2.py:9-23 | the static grid has only values 0 and 1, and a cell is 1 iff some wall footprint covers it |
| MarkCompositor.InSomeFootprintSnoc | occupation_grid_with_grid_generator/test2.py:20-21 | a cell is covered by the walls iff it is covered by all but the last wall, or by the last wall |
| MarkCompositor.StaticGridRepeatIdempotent | occupation_grid_with_grid_generator/test2.py:20-21 | applying the same wall box twice in a row equals applying it once |
| MarkCompositor.StaticGridAgreesWithOrMerge | occupation_grid_with_grid_generator/test2.py:9-23 | marking walls with 1 gives the same grid as the OR-merge compositor on the same walls |
| MarkCompositor.MarkEgo | occupation_grid_with_grid_generator/test2.py:25-34 | the copy is 2 on the ego footprint, overriding any static 1, and equals the input grid everywhere else; values stay in {0, 1, 2} |
| MarkCompositor.Animate | occupation_grid_with_grid_generator/test2.py:95-110 | the `while True` loop yields one square frame per ego pose reported |
| MarkCompositor.AnimateFrame | occupation_grid_with_grid_generator/test2.py:101-103 | frame k of the `while True` loop is the ego of pose k marked on the static grid itself, because the loop never assigns `grid` |
| MarkCompositor.FramesDoNotAccumulate | occupation_grid_with_grid_generator/test2.py:101-103 | frame k of the loop differs from the static grid only on ego footprint k; no cell outside it is 2 |
| MarkCompositor.Colorize | occupation_grid_with_grid_generator/test2.py:96-106 | the colour lookup is in range for 0/1/2 grids, and each colour (white, black, red) corresponds to exactly one cell value |
| MarkCompositor.FrameColorable | occupation_grid_with_grid_generator/test2.py:103-106 | every animation frame holds only 0, 1 and 2, so `color_map[current_grid]` is in range |
| Viewport.SumBounds | occupation_grid_with_grid_generator/test2.py:112 | a sum of values in `[lo, hi]` lies between `lo * n` and `hi * n` |
| Viewport.Mean | occupation_grid_with_grid_generator/test2.py:112 | the mean of indices in `[lo, hi]` lies in `[lo, hi]` |
| Viewport.FirstWindowOrdered | occupation_grid_with_grid_generator/test2.py:115-118 | before the edge rules, a center on the grid gives `start <= end` |
| Viewport.FirstStart | occupation_grid_with_grid_generator/test2.py:115-117 | `max(0, int(center - context // 2))` is non-negative, at least the truncated edge, and is one of 0 or that edge |
| Viewport.FirstEnd | occupation_grid_with_grid_generator/test2.py:116-118 | `min(shape, int(center + context // 2))` is at most `shape` and the truncated edge, and is one of them |
| Viewport.NearEndRule | occupation_grid_with_grid_generator/test2.py:121-124 | when `end >= shape - 10` the window is shifted: `end = shape` and `start = max(0, start - (end - (shape - 10)))`; otherwise unchanged; bounds are kept |
| Viewport.NearStartRule | occupation_grid_with_grid_generator/test2.py:125-128 | when `start <= 10`: `start = 0` and `end = min(shape, end + (10 - start))`; otherwise unchanged; bounds are kept |
| Viewport.AxisWindow | occupation_grid_with_grid_generator/test2.py:115-136 | the rules run in order, so the near-start test reads the start the near-end rule already shifted; after both `0 <= start` and `end <= shape`; a first end near the edge gives `end = shape`; a start `<= 10` after the shift gives `start = 0` and moves the end out by `10 - start`, capped at `shape`; otherwise the near-end window is kept; when neither rule fires, the first window is kept; a center on the grid gives `start <= end` |
| Viewport.NearLowEdgeWindow | occupation_grid_with_grid_generator/test2.py:115-128 | shape 500, context 200, center 50.0: the window is (0, 160), with the end moved out by the 10 cells the start was short of the margin |
| Viewport.ShiftedStartSnapsToZero | occupation_grid_with_grid_generator/test2.py:115-128 | shape 30, context 10, center 16.0: the near-end rule moves the window to (10, 30), and the near-start rule then fires on the shifted start, giving (0, 30) |
| Viewport.EgoView | occupation_grid_with_grid_generator/test2.py:109-136 | there is a view iff some cell holds 2; the view is the window around a center on the grid, and its slice bounds are well formed on both axes |
| SemanticMask.PixelIsRowMajor | grid_generator_using_segmentation/test.py:17-18 | pixel `(r, c)` is number `r * width + c` in the reshaped buffer |
| SemanticMask.ByteIndexInRange | grid_generator_using_segmentation/test.py:17-18 | every channel of every pixel lies inside a buffer of `height * width * 4` bytes |
| SemanticMask.PixelInjective | grid_generator_using_segmentation/test.py:18 | distinct pixels have distinct pixel numbers |
| SemanticMask.ByteIndexInjective | grid_generator_using_segmentation/test.py:18 | a byte offset determines its pixel and its channel |
| SemanticMask.Mask | grid_generator_using_segmentation/test.py:16-28 | a `height x width` 0/1 grid whose cell is 1 iff byte `(r * width + c) * 4 + 2` is 14, 22 or 24 |
| SemanticMask.MaskReadsOnlyTags | grid_generator_using_segmentation/test.py:20 | bytes of channels 0, 1 and 3 never affect the mask |
| SemanticMask.MaskIsPerPixel | grid_generator_using_segmentation/test.py:23-26 | changing one byte changes at most the mask cell of the pixel it belongs to |
| SemanticMask.DropAlpha | grid_generator_using_segmentation/segmentation_occupation_grid.py:38-42 | each display pixel is the first three bytes (B, G, R) of its buffer pixel |
| SemanticMask.DropAlphaIgnoresAlpha | grid_generator_using_segmentation/segmentation_occupation_grid.py:42 | the alpha bytes never reach the display array |
| SemanticMask.ProcessForDisplay | grid_generator_using_segmentation/segmentation_occupation_grid.py:18-44 | the obstacle grid is the raw-buffer mask, unaffected by the palette conversion; the display array is the converted buffer without alpha |
| CameraSlot.Put | grid_generator_using_segmentation/segmentation_occupation_grid.py:52-53 | an empty slot takes the frame; a full slot reports `Full`, keeps its frame and loses the incoming one |
| CameraSlot.PutAll | grid_generator_using_segmentation/segmentation_occupation_grid.py:52-53 | after several non-blocking puts the slot is empty iff it was empty and nothing arrived, and otherwise holds the old frame or one of the arrivals |
| CameraSlot.FullSlotIgnoresPuts | grid_generator_using_segmentation/segmentation_occupation_grid.py:52-53 | any number of puts into a full slot leave it unchanged |
| CameraSlot.BurstKeepsFirst | grid_generator_using_segmentation/segmentation_occupation_grid.py:52-53 | frames arriving with no take in between leave the first of them in the slot |
| CameraSlot.Update | grid_generator_using_segmentation/segmentation_occupation_grid.py:61-89 | a timeout changes nothing; otherwise the slot empties, the stored previous obstacle grid is the mask of the frame just taken, and the blend inputs are (current, previous), or (current, current) on the first frame |
| CameraSlot.BlendNeverStored | grid_generator_using_segmentation/segmentation_occupation_grid.py:72-86 | the next state does not depend on the blend functions: blended images are never stored |
| CameraSlot.Run | grid_generator_using_segmentation/segmentation_occupation_grid.py:53-89 | a run of arrivals and ticks never forgets the previous frame once one is stored, and arrivals alone leave it unchanged |
| CameraSlot.RunBurstThenTick | grid_generator_using_segmentation/segmentation_occupation_grid.py:53-89 | a burst of arrivals followed by one tick runs as the puts of the burst followed by one update |
| CameraSlot.BurstThenTickProcessesFirst | grid_generator_using_segmentation/segmentation_occupation_grid.py:53-89 | from any state, a burst then a tick empties the slot and stores the processed frame that was pending before the burst, or else the burst's first frame |
| CameraSlot.RunKeepsBinaryObstacle | grid_generator_using_segmentation/segmentation_occupation_grid.py:61-89 | across any sequence of arrivals and ticks, the remembered obstacle grid stays 0/1 whatever the blend computes |
| CameraSlot.ThreeArrivalsThenTick | grid_generator_using_segmentation/segmentation_occupation_grid.py:53-64 | three arrivals followed by one tick process the first frame and empty the slot |
| Collision.NewDetector | grid_using_collision_detection/test.py:8-14 | a fresh detector keeps the given `grid_size` and `cell_size`, has an all-zero square grid, `center = grid_size // 2` and no points |
| Collision.DetectorIndex | grid_using_collision_detection/test.py:21-22 | the detector's index is the shared world-to-grid mapping when `center = grid_size // 2`, and world 0 maps to the center |
| Collision.OnCollision | grid_using_collision_detection/test.py:16-27 | the mapped cell is appended and set to 1 iff it is inside the grid on both axes; otherwise nothing changes; every recorded point stays in bounds with its cell 1 |
| Collision.MarkProbe | grid_using_collision_detection/test.py:54-59 | the fallback sets the probe's cell only when it is in bounds, and never appends a point |
| Collision.UpdatesKeepMarks | grid_using_collision_detection/test.py:25-27 | neither update ever clears a set cell |
| Collision.DeliverAll | grid_using_collision_detection/test.py:16-27 | delivering collision events keeps the detector valid, only appends points, never clears a cell, and every newly set cell is a recorded point; a single event is one collision callback |
| Collision.DeliverAllSnoc | grid_using_collision_detection/test.py:16-27 | delivering one more event is one more collision callback on the detector so far, so the events are handled in arrival order |
| Collision.Probe | grid_using_collision_detection/test.py:50-59 | a failed spawn adds no point, sets the probe's cell when it is in bounds and changes no other cell; a live probe delivers exactly its own collision events in order, so a probe with no collisions changes nothing |
| Collision.ScanColumn | grid_using_collision_detection/test.py:47-59 | one column of probes keeps the detector valid and its set cells set, sets every failed probe's in-bounds cell, and explains each newly set cell as a recorded point or a failed probe's cell |
| Collision.ScanEnvironment | grid_using_collision_detection/test.py:46-59 | after the 50 x 50 scan the detector is valid, the earlier points are a prefix, earlier set cells stay set, every failed probe that maps inside the grid has its cell set, and every newly set cell is a recorded collision point or the cell of a failed probe |
| Collision.DefaultProbeIndex | grid_using_collision_detection/test.py:56-57 | with 500 cells of 0.2 m, probe coordinate `v` maps to `250 + 5 v` |
| Collision.DefaultDetectorIndex | grid_using_collision_detection/test.py:8-22 | a fresh detector with the defaults of 500 cells of 0.2 m maps probe coordinate `v` to `250 + 5 v` |
| Collision.DefaultScanInBounds | grid_using_collision_detection/test.py:46-58 | with the defaults every probe of the scan maps inside the grid |
| Collision.Unzip | grid_using_collision_detection/test.py:92-93 | `ox` and `oy` have the length of `collision_points` and are pointwise its first and second components |

## Left out

- CARLA I/O is taken as input data. This covers the client and world
  connection, `get_level_bbs`, actor and sensor spawning,
  `listen`/`stop`/`destroy`, and `transform.transform`. The ego box reaches
  `MarkEgo` and `EgoCell` already placed; its pose is not modelled.
- OpenCV rasterisation is not modelled. `fillPoly`, `polylines`, `rectangle`,
  `resize` and `addWeighted` are parameters, so which pixels a polygon
  covers is not stated. Clipping of polygons that leave the grid is part of
  that.
- `np.radians`, `np.cos` and `np.sin` are not modelled. The yaw enters as an
  exact `(cos, sin)` pair.
- Floating-point rounding is not modelled: all world coordinates are exact
  reals. This includes the accumulated `current += 2.5` in
  `segment_parking_lines`, whose positions are exact multiples here.
- `uint8` storage is not modelled. Grid values stay in {0, 1, 2} and tags in
  0..255, so it never wraps.
- Threads, sleeps and timeouts are not modelled. The camera hand-off is a
  sequential state machine, and a `get` timeout is the empty-slot case.
- Windows, plotting, zooming and file output are not modelled:
  `imshow`, matplotlib, `FuncAnimation`, `np.save`, `cv2.imwrite`.
- `capture_single_image` of grid_generator_using_segmentation/test.py is
  camera I/O around the modelled `process_semantic_data`.
- instance_segmentation.py, commonroad.py and plot_grid.py are outside this
  model. They are display, planner configuration and plotting.
- occupation_grid.py is outside this model. It does not parse, and its
  `design_obstacles` returns empty lists.
- Rebuilding a grid from `ox`/`oy` is not modelled, because no script
  defines it. `Collision.Unzip` and
  `ObstacleList.Scan` state the forward direction exactly.
- `CameraSlot.State` keeps `prev_semantic` and `prev_obstacle` as one
  optional pair. The code always assigns them together.
- A cell size of 0 is not modelled. Every member that maps world
  coordinates requires `cellSize != 0.0`, so the `ZeroDivisionError` that
  `int(center + v / cell_size)` raises for it has no counterpart here. The
  scripts only pass the positive defaults.
- OrCompositor.ObstacleGrid: requires `grid_size >= 1`. With an empty grid
  the ego write indexes outside it and the script raises `IndexError`.
- Viewport.Mean: states only that the mean lies within the bounds of its
  elements. That bound is all the window arithmetic relies on.
- Viewport.EgoView: states that the view is the window around some center on
  the grid, not that the center is the mean of the 2-cells.
- Collision.ScanEnvironment: states that points are only appended, not which
  ones, and that each new 1-cell is a point or a failed probe's cell. The
  effect of each event is stated by `Collision.OnCollision`.
- Collision.ScanColumn: like `Collision.ScanEnvironment`, states that points
  are only appended and that each new 1-cell is a point or a failed probe's
  cell, not which points. Each probe's exact effect is stated by
  `Collision.Probe`.
- LegacyGrids.DrawnRects: states that each drawn rectangle is in bounds and
  comes from a box. Order and completeness are stated by
  `LegacyGrids.DrawnRectsAppend`.
- ParkingLines.SegmentAlongX: states the x positions and the constant y, z
  and extent. The line count is stated through the loop bound rather than as
  a closed formula.

=== FILE: boxes.dfy ===
/**
  Oriented bounding boxes and their 2-D corners (`get_bounding_box_corners`,
  identical in every grid generator), plus the corner-to-grid mapping the
  generators apply before handing a polygon to OpenCV.

  The yaw enters only through `cos(yaw)` and `sin(yaw)`, which are taken as
  exact real parameters of the box.
 */
module Boxes {
  import opened Coords
  import opened Grid

  datatype Vec3 = Vec3(x: real, y: real, z: real)

  /** A rotation about the vertical axis, given by the cosine and sine of its yaw. */
  datatype Yaw = Yaw(cos: real, sin: real)

  /** `carla.BoundingBox`: center, half-extents and rotation. */
  datatype Box = Box(location: Vec3, extent: Vec3, yaw: Yaw)

  /** A `carla.BoundingBox(location, extent)` built without a rotation (yaw 0). */
  const NoRotation := Yaw(1.0, 0.0)

  /** Rotate local `(lx, ly)` by `yaw` and translate by `center`; z is kept from the center. */
  function Place(center: Vec3, yaw: Yaw, lx: real, ly: real): (p: Vec3)
    ensures p.z == center.z
    // the offset from the center is (lx, ly) rotated counter-clockwise by the yaw
    ensures p.x - center.x == lx * yaw.cos - ly * yaw.sin && p.y - center.y == lx * yaw.sin + ly * yaw.cos
    ensures lx == 0.0 && ly == 0.0 ==> p == center
    ensures yaw == NoRotation ==> p == Vec3(center.x + lx, center.y + ly, center.z)
  {
    Vec3(center.x + (lx * yaw.cos - ly * yaw.sin),
         center.y + (lx * yaw.sin + ly * yaw.cos),
         center.z)
  }

  /**
    The four corners, from local `(-ex,-ey)`, `(ex,-ey)`, `(ex,ey)`, `(-ex,ey)`
    in that order.  There are four of them, whatever the docstring of the
    main generator says about eight.
   */
  function Corners(center: Vec3, extent: Vec3, yaw: Yaw): (cs: seq<Vec3>)
    ensures |cs| == 4
    ensures forall i :: 0 <= i < 4 ==> cs[i].z == center.z
    // opposite corners are symmetric about the center
    ensures cs[0].x + cs[2].x == 2.0 * center.x && cs[0].y + cs[2].y == 2.0 * center.y
    ensures cs[1].x + cs[3].x == 2.0 * center.x && cs[1].y + cs[3].y == 2.0 * center.y
    // the local x edge (corner 0 to 1) is the x axis rotated by (cos, sin), scaled by 2 ex
    ensures cs[1].x - cs[0].x == 2.0 * extent.x * yaw.cos && cs[1].y - cs[0].y == 2.0 * extent.x * yaw.sin
    // the local y edge (corner 0 to 3) is the y axis rotated by (cos, sin), scaled by 2 ey
    ensures cs[3].x - cs[0].x == -2.0 * extent.y * yaw.sin && cs[3].y - cs[0].y == 2.0 * extent.y * yaw.cos
    // the corners wind as a parallelogram: corner 1 to 2 is the same edge as corner 0 to 3
    ensures cs[2].x - cs[1].x == cs[3].x - cs[0].x && cs[2].y - cs[1].y == cs[3].y - cs[0].y
  {
    [Place(center, yaw, -extent.x, -extent.y),
     Place(center, yaw,  extent.x, -extent.y),
     Place(center, yaw,  extent.x,  extent.y),
     Place(center, yaw, -extent.x,  extent.y)]
  }

  function SqDist2(a: Vec3, b: Vec3): real
  {
    (a.x - b.x) * (a.x - b.x) + (a.y - b.y) * (a.y - b.y)
  }

  /** With yaw 0 the corners are the axis-aligned `center +- extent`. */
  lemma CornersAtYawZero(center: Vec3, extent: Vec3)
    ensures Corners(center, extent, NoRotation) ==
      [Vec3(center.x - extent.x, center.y - extent.y, center.z),
       Vec3(center.x + extent.x, center.y - extent.y, center.z),
       Vec3(center.x + extent.x, center.y + extent.y, center.z),
       Vec3(center.x - extent.x, center.y + extent.y, center.z)]
  {
  }

  /** Rotation by a proper (cos, sin) pair preserves the distance of a local point. */
  lemma PlaceDistance(center: Vec3, yaw: Yaw, lx: real, ly: real)
    requires yaw.cos * yaw.cos + yaw.sin * yaw.sin == 1.0
    ensures SqDist2(Place(center, yaw, lx, ly), center) == lx * lx + ly * ly
  {
    var c, s := yaw.cos, yaw.sin;
    var p := Place(center, yaw, lx, ly);
    assert p.x - center.x == lx * c - ly * s;
    assert p.y - center.y == lx * s + ly * c;
    calc {
      (lx * c - ly * s) * (lx * c - ly * s) + (lx * s + ly * c) * (lx * s + ly * c);
      lx * lx * (c * c + s * s) + ly * ly * (c * c + s * s);
      { assert c * c + s * s == 1.0; }
      lx * lx + ly * ly;
    }
  }

  /** If `cos^2 + sin^2 = 1`, every corner lies at squared distance `ex^2 + ey^2` from the center. */
  lemma {:induction false} CornersOnCircle(center: Vec3, extent: Vec3, yaw: Yaw)
    requires yaw.cos * yaw.cos + yaw.sin * yaw.sin == 1.0
    ensures forall i :: 0 <= i < 4 ==>
              SqDist2(Corners(center, extent, yaw)[i], center) == extent.x * extent.x + extent.y * extent.y
  {
    PlaceDistance(center, yaw, -extent.x, -extent.y);
    PlaceDistance(center, yaw,  extent.x, -extent.y);
    PlaceDistance(center, yaw,  extent.x,  extent.y);
    PlaceDistance(center, yaw, -extent.x,  extent.y);
  }

  /** Map one world corner to its `(x, y)` grid index pair. */
  function CornerCell(gridSize: nat, cellSize: real, p: Vec3): (c: Cell)
    requires cellSize != 0.0
    ensures var ex := Center(gridSize) as real + p.x / cellSize;
            ex - 1.0 < c.x as real < ex + 1.0
    ensures var ey := Center(gridSize) as real + p.y / cellSize;
            ey - 1.0 < c.y as real < ey + 1.0
    ensures p.x == 0.0 && p.y == 0.0 ==> c == Cell(gridSize / 2, gridSize / 2)
    // both axes use the same truncating index mapping
    ensures c == Cell(ToIndex(gridSize, cellSize, p.x), ToIndex(gridSize, cellSize, p.y))
  {
    Cell(ToIndex(gridSize, cellSize, p.x), ToIndex(gridSize, cellSize, p.y))
  }

  /** `grid_corners` of a box: each corner mapped independently, corner order kept. */
  function GridCorners(gridSize: nat, cellSize: real, b: Box): (gc: seq<Cell>)
    requires cellSize != 0.0
    ensures |gc| == 4
    ensures forall i :: 0 <= i < 4 ==>
              gc[i].x == Trunc(Center(gridSize) as real + Corners(b.location, b.extent, b.yaw)[i].x / cellSize) &&
              gc[i].y == Trunc(Center(gridSize) as real + Corners(b.location, b.extent, b.yaw)[i].y / cellSize)
  {
    var cs := Corners(b.location, b.extent, b.yaw);
    [CornerCell(gridSize, cellSize, cs[0]), CornerCell(gridSize, cellSize, cs[1]),
     CornerCell(gridSize, cellSize, cs[2]), CornerCell(gridSize, cellSize, cs[3])]
  }

  /**
    For an unrotated box with non-negative extents and a positive cell size,
    corner 0 has the smallest and corner 2 the largest indices on both axes.
   */
  lemma {:induction false} GridCornersOrderedAtYawZero(gridSize: nat, cellSize: real, location: Vec3, extent: Vec3)
    requires 0.0 < cellSize
    requires 0.0 <= extent.x && 0.0 <= extent.y
    ensures var gc := GridCorners(gridSize, cellSize, Box(location, extent, NoRotation));
            gc[0].x <= gc[1].x && gc[1].x == gc[2].x && gc[0].x == gc[3].x &&
            gc[0].y == gc[1].y && gc[1].y <= gc[2].y && gc[2].y == gc[3].y
  {
    CornersAtYawZero(location, extent);
    ToIndexMonotone(gridSize, cellSize, location.x - extent.x, location.x + extent.x);
    ToIndexMonotone(gridSize, cellSize, location.y - extent.y, location.y + extent.y);
  }
}

=== FILE: camera_slot.dfy ===
/**
  The camera hand-off of `SemanticVisualizer` as a sequential state machine.

  The sensor callback does `image_queue.put(image, block=False)` on a
  `queue.Queue(maxsize=1)`: when the queue already holds a frame the put
  raises `queue.Full` and the NEW frame is lost.  Each animation tick,
  `update` takes the pending frame (a timeout when there is none leaves
  everything as it was), processes it, blends it with the previous frame
  for display and remembers the unblended frame as the previous one.

  `cv2.addWeighted` is the pair of parameters `blendSemantic` and
  `blendObstacle` (current frame first, previous second); the palette
  conversion is the parameter `convert`.
 */
module CameraSlot {
  import opened Wrappers
  import opened Grid
  import opened SemanticMask

  /** A semantic camera frame: the raw BGRA buffer and its dimensions. */
  datatype Image = Image(raw: seq<byte>, height: nat, width: nat)

  /** The buffer holds `height * width` BGRA pixels (what `np.reshape` demands). */
  predicate WellFormed(img: Image)
  {
    |img.raw| == img.height * img.width * Channels
  }

  type Visual = seq<seq<Pixel>>

  /** The two arrays `process_semantic_data` returns for a frame. */
  datatype Processed = Processed(semantic: Visual, obstacle: Grid)

  /** The single slot: `None` when empty, so it can never hold more than one frame. */
  type Slot = Option<Image>

  /**
    `put(image, block=False)` on a queue of size one: an empty slot takes
    the frame; a full slot raises `Full` (reported as `out.1`), keeps its
    frame and loses the incoming one.
   */
  function Put(slot: Slot, img: Image): (out: (Slot, bool))
    ensures slot.None? ==> out == (Some(img), false)
    ensures slot.Some? ==> out == (slot, true)
  {
    match slot
    case None => (Some(img), false)
    case Some(_) => (slot, true)
  }

  /** Several puts with no take in between. */
  function PutAll(slot: Slot, imgs: seq<Image>): (r: Slot)
    ensures r.None? <==> slot.None? && |imgs| == 0
    ensures r.Some? ==> r == slot || exists i :: 0 <= i < |imgs| && r == Some(imgs[i])
    decreases |imgs|
  {
    if |imgs| == 0 then slot else PutAll(Put(slot, imgs[0]).0, imgs[1..])
  }

  /**
    Frames arriving while the consumer is busy: the slot ends up holding the
    FIRST of them, every later one is dropped.
   */
  lemma {:induction false} BurstKeepsFirst(imgs: seq<Image>)
    requires |imgs| > 0
    ensures PutAll(None, imgs) == Some(imgs[0])
  {
    FullSlotIgnoresPuts(Some(imgs[0]), imgs[1..]);
  }

  lemma {:induction false} FullSlotIgnoresPuts(slot: Slot, imgs: seq<Image>)
    requires slot.Some?
    ensures PutAll(slot, imgs) == slot
    decreases |imgs|
  {
    if |imgs| > 0 {
      FullSlotIgnoresPuts(slot, imgs[1..]);
    }
  }

  /** The visualizer's state: the slot plus `prev_semantic` / `prev_obstacle` (always set together). */
  datatype State = State(slot: Slot, prev: Option<Processed>)

  /** The constructor's state: empty queue, `prev_semantic = prev_obstacle = None`. */
  const Initial := State(None, None)

  /** The images an update hands to the display: both blended arrays. */
  datatype Shown = Shown(semantic: Visual, obstacle: Grid)

  /** A frame the update can process: well-formed and length-preserved by the palette conversion. */
  predicate Processable(img: Image, convert: seq<byte> -> seq<byte>)
  {
    WellFormed(img) && |convert(img.raw)| == |img.raw|
  }

  function Process(img: Image, convert: seq<byte> -> seq<byte>): Processed
    requires Processable(img, convert)
  {
    var out := ProcessForDisplay(img.raw, img.height, img.width, convert);
    Processed(out.0, out.1)
  }

  /**
    One call of `update`.  On an empty slot (the `queue.Empty` timeout)
    nothing changes and nothing new is shown.  Otherwise the slot is
    emptied, the previous frame becomes the unblended current frame (its
    obstacle grid is the raw-buffer mask), and on the very first frame both
    blend inputs are the current frame.
   */
  function Update(s: State, convert: seq<byte> -> seq<byte>,
                  blendSemantic: (Visual, Visual) -> Visual, blendObstacle: (Grid, Grid) -> Grid)
    : (out: (State, Option<Shown>))
    requires s.slot.Some? ==> Processable(s.slot.value, convert)
    ensures s.slot.None? ==> out == (s, None)
    ensures s.slot.Some? ==> out.0.slot.None? && out.0.prev.Some? && out.1.Some?
    ensures s.slot.Some? ==>
              var img := s.slot.value;
              out.0.prev.value.obstacle == Mask(img.raw, img.height, img.width) &&
              out.0.prev.value.semantic == DropAlpha(convert(img.raw), img.height, img.width)
    ensures s.slot.Some? && s.prev.None? ==>
              var cur := out.0.prev.value;
              out.1 == Some(Shown(blendSemantic(cur.semantic, cur.semantic), blendObstacle(cur.obstacle, cur.obstacle)))
    ensures s.slot.Some? && s.prev.Some? ==>
              var cur := out.0.prev.value;
              out.1 == Some(Shown(blendSemantic(cur.semantic, s.prev.value.semantic),
                                  blendObstacle(cur.obstacle, s.prev.value.obstacle)))
  {
    match s.slot
    case None => (s, None)
    case Some(img) =>
      var cur := Process(img, convert);
      // first frame: prev_semantic / prev_obstacle are set to the current frame before blending
      var prev := if s.prev.None? then cur else s.prev.value;
      var shown := Shown(blendSemantic(cur.semantic, prev.semantic), blendObstacle(cur.obstacle, prev.obstacle));
      (State(None, Some(cur)), Some(shown))
  }

  /** The blended images are display-only: the next state does not depend on the blend at all. */
  lemma BlendNeverStored(s: State, convert: seq<byte> -> seq<byte>,
                         bs: (Visual, Visual) -> Visual, bo: (Grid, Grid) -> Grid,
                         bs': (Visual, Visual) -> Visual, bo': (Grid, Grid) -> Grid)
    requires s.slot.Some? ==> Processable(s.slot.value, convert)
    ensures Update(s, convert, bs, bo).0 == Update(s, convert, bs', bo').0
  {
  }

  /** What happens between two display refreshes: a frame arrives, or a tick runs `update`. */
  datatype Event = Arrive(img: Image) | Tick

  /** Run events in order from a state, ignoring what is shown. */
  function Run(s: State, events: seq<Event>, convert: seq<byte> -> seq<byte>,
               blendSemantic: (Visual, Visual) -> Visual, blendObstacle: (Grid, Grid) -> Grid): (r: State)
    requires forall i :: 0 <= i < |events| && events[i].Arrive? ==> Processable(events[i].img, convert)
    requires s.slot.Some? ==> Processable(s.slot.value, convert)
    // once a frame has been processed there is always a previous frame
    ensures s.prev.Some? ==> r.prev.Some?
    // arrivals alone never touch the previous frame
    ensures (forall i :: 0 <= i < |events| ==> events[i].Arrive?) ==> r.prev == s.prev
    decreases |events|
  {
    if |events| == 0 then s
    else
      var next := match events[0]
        case Arrive(img) => State(Put(s.slot, img).0, s.prev)
        case Tick => Update(s, convert, blendSemantic, blendObstacle).0;
      Run(next, events[1..], convert, blendSemantic, blendObstacle)
  }

  /**
    Whatever the blend functions compute, the obstacle grid the visualizer
    remembers is always a 0/1 grid.
   */
  lemma {:induction false} RunKeepsBinaryObstacle(s: State, events: seq<Event>, convert: seq<byte> -> seq<byte>,
                                                  bs: (Visual, Visual) -> Visual, bo: (Grid, Grid) -> Grid)
    requires forall i :: 0 <= i < |events| && events[i].Arrive? ==> Processable(events[i].img, convert)
    requires s.slot.Some? ==> Processable(s.slot.value, convert)
    requires s.prev.Some? ==> ValuesIn(s.prev.value.obstacle, {0, 1})
    ensures var s' := Run(s, events, convert, bs, bo);
            s'.prev.Some? ==> ValuesIn(s'.prev.value.obstacle, {0, 1})
    decreases |events|
  {
    if |events| > 0 {
      var next := match events[0]
        case Arrive(img) => State(Put(s.slot, img).0, s.prev)
        case Tick => Update(s, convert, bs, bo).0;
      assert forall i :: 0 <= i < |events[1..]| ==> events[1..][i] == events[i + 1];
      RunKeepsBinaryObstacle(next, events[1..], convert, bs, bo);
    }
  }

  /** The events of a burst of arrivals. */
  function Arrivals(imgs: seq<Image>): (evs: seq<Event>)
    ensures |evs| == |imgs|
    ensures forall i :: 0 <= i < |imgs| ==> evs[i] == Arrive(imgs[i])
  {
    seq(|imgs|, i requires 0 <= i < |imgs| => Arrive(imgs[i]))
  }

  /** A burst then a tick runs as the puts of the burst followed by one update. */
  lemma {:induction false} RunBurstThenTick(s: State, imgs: seq<Image>, convert: seq<byte> -> seq<byte>,
                                            bs: (Visual, Visual) -> Visual, bo: (Grid, Grid) -> Grid)
    requires forall i :: 0 <= i < |imgs| ==> Processable(imgs[i], convert)
    requires s.slot.Some? ==> Processable(s.slot.value, convert)
    ensures PutAll(s.slot, imgs).Some? ==> Processable(PutAll(s.slot, imgs).value, convert)
    ensures Run(s, Arrivals(imgs) + [Tick], convert, bs, bo) == Update(State(PutAll(s.slot, imgs), s.prev), convert, bs, bo).0
    decreases |imgs|
  {
    var evs := Arrivals(imgs) + [Tick];
    if |imgs| == 0 {
      assert evs == [Tick];
      assert evs[1..] == [];
    } else {
      var next := State(Put(s.slot, imgs[0]).0, s.prev);
      assert evs[0] == Arrive(imgs[0]);
      assert evs[1..] == Arrivals(imgs[1..]) + [Tick];
      RunBurstThenTick(next, imgs[1..], convert, bs, bo);
    }
  }

  /**
    First wins over a whole run: after any burst of arrivals and one tick,
    the slot is empty and the stored previous frame is the processed frame
    that was pending before the burst, or else the burst's first frame.
   */
  lemma BurstThenTickProcessesFirst(s: State, imgs: seq<Image>, convert: seq<byte> -> seq<byte>,
                                    bs: (Visual, Visual) -> Visual, bo: (Grid, Grid) -> Grid)
    requires forall i :: 0 <= i < |imgs| ==> Processable(imgs[i], convert)
    requires s.slot.Some? ==> Processable(s.slot.value, convert)
    requires s.slot.Some? || |imgs| > 0
    ensures var first := if s.slot.Some? then s.slot.value else imgs[0];
            var r := Run(s, Arrivals(imgs) + [Tick], convert, bs, bo);
            r.slot.None? && r.prev == Some(Process(first, convert))
  {
    RunBurstThenTick(s, imgs, convert, bs, bo);
    if s.slot.Some? {
      FullSlotIgnoresPuts(s.slot, imgs);
    } else {
      BurstKeepsFirst(imgs);
    }
  }

  /**
    Three frames arriving before one tick: the tick takes the first frame,
    so afterwards the remembered obstacle grid is the mask of `a`, and the
    slot is empty again.
   */
  lemma {:induction false} ThreeArrivalsThenTick(a: Image, b: Image, c: Image, convert: seq<byte> -> seq<byte>,
                                                 bs: (Visual, Visual) -> Visual, bo: (Grid, Grid) -> Grid)
    requires Processable(a, convert) && Processable(b, convert) && Processable(c, convert)
    ensures var s := Run(Initial, [Arrive(a), Arrive(b), Arrive(c), Tick], convert, bs, bo);
            s.slot.None? && s.prev == Some(Process(a, convert)) &&
            s.prev.value.obstacle == Mask(a.raw, a.height, a.width)
  {
    var evs := [Arrive(a), Arrive(b), Arrive(c), Tick];
    var held := State(Some(a), None);
    var done := Update(held, convert, bs, bo).0;
    assert evs[1..] == [Arrive(b), Arrive(c), Tick];
    assert evs[1..][1..] == [Arrive(c), Tick];
    assert evs[1..][1..][1..] == [Tick];
    calc {
      Run(Initial, evs, convert, bs, bo);
      Run(held, evs[1..], convert, bs, bo);
      Run(held, evs[1..][1..], convert, bs, bo);
      Run(held, evs[1..][1..][1..], convert, bs, bo);
      { assert [Tick][1..] == []; }
      Run(done, [], convert, bs, bo);
    }
  }
}

=== FILE: collision.dfy ===
/**
  grid_using_collision_detection/test.py: a `CollisionDetector` records
  collision locations in a 0/1 grid and a point list, and a probe scan over
  `x, y in range(-25, 25)` marks the cell of every probe whose spawn fails.

  The simulator is replaced by data: each probe's outcome (spawned, with
  the collision events it caused while alive, or failed) is the parameter
  `outcome`, and the events are delivered in order during that probe.
 */
module Collision {
  import opened Coords
  import opened Grid
  import opened Boxes

  datatype Detector = Detector(gridSize: nat, cellSize: real, grid: Grid, center: int, points: seq<Cell>)

  /** The detector invariant: a 0/1 square grid, and every recorded point in bounds with its cell set. */
  ghost predicate Valid(d: Detector)
  {
    && d.cellSize != 0.0
    && d.center == d.gridSize / 2
    && Square(d.grid, d.gridSize)
    && ValuesIn(d.grid, {0, 1})
    && forall i :: 0 <= i < |d.points| ==> InBounds(d.gridSize, d.points[i]) && d.grid[d.points[i].y][d.points[i].x] == 1
  }

  /** `CollisionDetector.__init__` (the defaults are 500 cells of 0.2 m). */
  function NewDetector(gridSize: nat, cellSize: real): (d: Detector)
    requires cellSize != 0.0
    ensures Valid(d)
    ensures d.points == [] && d.center == gridSize / 2
    ensures d.gridSize == gridSize && d.cellSize == cellSize
    ensures Square(d.grid, gridSize)
    ensures forall y, x :: 0 <= y < gridSize && 0 <= x < gridSize ==> d.grid[y][x] == 0
  {
    Detector(gridSize, cellSize, Zeros(gridSize, gridSize), gridSize / 2, [])
  }

  /** `int(self.center + v / self.cell_size)`. */
  function DetectorIndex(d: Detector, v: real): (i: int)
    requires d.cellSize != 0.0
    ensures d.center == d.gridSize / 2 ==> i == ToIndex(d.gridSize, d.cellSize, v)
    ensures v == 0.0 ==> i == d.center
  {
    Trunc(d.center as real + v / d.cellSize)
  }

  /**
    `collision_callback`: the mapped cell is appended and set to 1 iff it is
    inside the grid on both axes; otherwise the detector is unchanged.
   */
  function OnCollision(d: Detector, loc: Vec3): (d': Detector)
    requires Valid(d)
    ensures Valid(d')
    ensures var c := Cell(DetectorIndex(d, loc.x), DetectorIndex(d, loc.y));
            if InBounds(d.gridSize, c) then
              d'.points == d.points + [c] && d'.grid == SetCell(d.grid, c, 1) &&
              d'.gridSize == d.gridSize && d'.cellSize == d.cellSize && d'.center == d.center
            else d' == d
    ensures NewMarksRecorded(d, d')
  {
    var c := Cell(DetectorIndex(d, loc.x), DetectorIndex(d, loc.y));
    if 0 <= c.x < d.gridSize && 0 <= c.y < d.gridSize then
      d.(points := d.points + [c], grid := SetCell(d.grid, c, 1))
    else d
  }

  /** The failed-spawn fallback: mark the probe's cell if it is in bounds; never record a point. */
  function MarkProbe(d: Detector, x: int, y: int): (d': Detector)
    requires Valid(d)
    ensures Valid(d')
    ensures d'.points == d.points && d'.gridSize == d.gridSize && d'.cellSize == d.cellSize && d'.center == d.center
    ensures var c := Cell(DetectorIndex(d, x as real), DetectorIndex(d, y as real));
            if InBounds(d.gridSize, c) then d'.grid == SetCell(d.grid, c, 1) else d' == d
  {
    var c := Cell(DetectorIndex(d, x as real), DetectorIndex(d, y as real));
    if 0 <= c.x < d.gridSize && 0 <= c.y < d.gridSize then d.(grid := SetCell(d.grid, c, 1)) else d
  }

  /** Every cell set in `d'` but not in `d` is one of the points `d'` records. */
  ghost predicate NewMarksRecorded(d: Detector, d': Detector)
    requires Square(d.grid, d.gridSize) && Square(d'.grid, d.gridSize)
  {
    forall r, c :: 0 <= r < d.gridSize && 0 <= c < d.gridSize && d'.grid[r][c] == 1 && d.grid[r][c] != 1 ==>
      Cell(c, r) in d'.points
  }

  /** Recorded new marks compose when the later detector extends the earlier one's points. */
  lemma NewMarksCompose(d: Detector, d1: Detector, d2: Detector)
    requires Square(d.grid, d.gridSize) && Square(d1.grid, d.gridSize) && Square(d2.grid, d.gridSize)
    requires d1.gridSize == d.gridSize
    requires NewMarksRecorded(d, d1) && NewMarksRecorded(d1, d2)
    requires |d1.points| <= |d2.points| && d2.points[..|d1.points|] == d1.points
    ensures NewMarksRecorded(d, d2)
  {
    forall r, c | 0 <= r < d.gridSize && 0 <= c < d.gridSize && d2.grid[r][c] == 1 && d.grid[r][c] != 1
      ensures Cell(c, r) in d2.points
    {
      if d1.grid[r][c] == 1 {
        var i :| 0 <= i < |d1.points| && d1.points[i] == Cell(c, r);
        assert d2.points[..|d1.points|][i] == Cell(c, r);
      }
    }
  }

  /** A cell set to 1 stays 1: both updates only ever write 1. */
  lemma {:induction false} UpdatesKeepMarks(d: Detector, loc: Vec3, x: int, y: int)
    requires Valid(d)
    ensures forall r, c :: 0 <= r < d.gridSize && 0 <= c < d.gridSize && d.grid[r][c] == 1 ==>
              OnCollision(d, loc).grid[r][c] == 1 && MarkProbe(d, x, y).grid[r][c] == 1
  {
  }

  /** What happened to one probe pedestrian. */
  datatype ProbeOutcome = Spawned(collisions: seq<Vec3>) | SpawnFailed

  /** Deliver collision events in order. */
  function DeliverAll(d: Detector, events: seq<Vec3>): (d': Detector)
    requires Valid(d)
    ensures Valid(d')
    ensures d'.gridSize == d.gridSize && d'.cellSize == d.cellSize && d'.center == d.center
    ensures |d.points| <= |d'.points| && d'.points[..|d.points|] == d.points
    ensures forall r, c :: 0 <= r < d.gridSize && 0 <= c < d.gridSize && d.grid[r][c] == 1 ==> d'.grid[r][c] == 1
    ensures NewMarksRecorded(d, d')
    ensures |events| == 1 ==> d' == OnCollision(d, events[0])
    decreases |events|
  {
    if |events| == 0 then d
    else
      var d1 := OnCollision(d, events[0]);
      var d' := DeliverAll(d1, events[1..]);
      assert d'.points[..|d.points|] == d1.points[..|d1.points|][..|d.points|];
      NewMarksCompose(d, d1, d');
      d'
  }

  /** Delivering one more event is one more collision callback on the detector so far. */
  lemma {:induction false} DeliverAllSnoc(d: Detector, events: seq<Vec3>, e: Vec3)
    requires Valid(d)
    ensures DeliverAll(d, events + [e]) == OnCollision(DeliverAll(d, events), e)
    decreases |events|
  {
    if |events| == 0 {
      assert (events + [e])[1..] == [];
    } else {
      assert (events + [e])[0] == events[0];
      assert (events + [e])[1..] == events[1..] + [e];
      DeliverAllSnoc(OnCollision(d, events[0]), events[1..], e);
    }
  }

  /** The scanned coordinates: `range(-25, 25)` on both axes. */
  const ScanLo := -25
  const ScanHi := 25

  /** One probe of the scan. */
  function Probe(d: Detector, x: int, y: int, outcome: ProbeOutcome): (d': Detector)
    requires Valid(d)
    ensures Valid(d')
    ensures d'.gridSize == d.gridSize && d'.cellSize == d.cellSize && d'.center == d.center
    ensures |d.points| <= |d'.points| && d'.points[..|d.points|] == d.points
    ensures outcome.SpawnFailed? ==> d'.points == d.points
    ensures forall r, c :: 0 <= r < d.gridSize && 0 <= c < d.gridSize && d.grid[r][c] == 1 ==> d'.grid[r][c] == 1
    ensures outcome.SpawnFailed? && InBounds(d.gridSize, Cell(DetectorIndex(d, x as real), DetectorIndex(d, y as real))) ==>
              d'.grid[DetectorIndex(d, y as real)][DetectorIndex(d, x as real)] == 1
    ensures outcome.SpawnFailed? ==>
              forall r, c :: (0 <= r < d.gridSize && 0 <= c < d.gridSize &&
                Cell(c, r) != Cell(DetectorIndex(d, x as real), DetectorIndex(d, y as real))) ==> d'.grid[r][c] == d.grid[r][c]
    ensures outcome.Spawned? ==> NewMarksRecorded(d, d')
    // a live probe delivers exactly its own collision events, in order
    ensures outcome.Spawned? ==> d' == DeliverAll(d, outcome.collisions)
    ensures outcome.Spawned? && |outcome.collisions| == 0 ==> d' == d
  {
    match outcome
    case Spawned(events) => DeliverAll(d, events)
    case SpawnFailed => MarkProbe(d, x, y)
  }

  /** The probe `(px, py)` comes before `(x, y)` in the scan (x outer, y inner). */
  predicate Scanned(px: int, py: int, x: int, y: int)
  {
    px < x || (px == x && py < y)
  }

  /** The cells of the failed probes among those scanned before `(x, y)`, as the detector maps them. */
  ghost function FailedCells(d: Detector, outcome: (int, int) -> ProbeOutcome, x: int, y: int): set<Cell>
    requires d.cellSize != 0.0
  {
    set px, py | ScanLo <= px < ScanHi && ScanLo <= py < ScanHi && Scanned(px, py, x, y) && outcome(px, py).SpawnFailed? ::
      Cell(DetectorIndex(d, px as real), DetectorIndex(d, py as real))
  }

  /** Scanning one more probe only adds to the failed cells, and adds the probe's own cell if it failed. */
  lemma FailedCellsStep(d: Detector, outcome: (int, int) -> ProbeOutcome, x: int, y: int)
    requires d.cellSize != 0.0
    requires ScanLo <= x < ScanHi && ScanLo <= y < ScanHi
    ensures FailedCells(d, outcome, x, y) <= FailedCells(d, outcome, x, y + 1)
    ensures outcome(x, y).SpawnFailed? ==>
              Cell(DetectorIndex(d, x as real), DetectorIndex(d, y as real)) in FailedCells(d, outcome, x, y + 1)
  {
  }

  /** Finishing a column and starting the next one keeps the failed cells. */
  lemma FailedCellsNextColumn(d: Detector, outcome: (int, int) -> ProbeOutcome, x: int)
    requires d.cellSize != 0.0
    ensures FailedCells(d, outcome, x, ScanHi) <= FailedCells(d, outcome, x + 1, ScanLo)
  {
  }

  /** Every cell set in `d` but not in `d0` is a recorded point or one of `extra`. */
  ghost predicate NewMarksExplained(d0: Detector, d: Detector, extra: set<Cell>)
    requires Square(d0.grid, d0.gridSize) && Square(d.grid, d0.gridSize)
  {
    forall r, c :: 0 <= r < d0.gridSize && 0 <= c < d0.gridSize && d.grid[r][c] == 1 && d0.grid[r][c] != 1 ==>
      Cell(c, r) in d.points || Cell(c, r) in extra
  }

  /** What the scan keeps from the starting detector `d0`: validity, parameters, points as a prefix, set cells. */
  ghost predicate Extends(d0: Detector, d: Detector)
    requires Valid(d0)
  {
    && Valid(d)
    && d.gridSize == d0.gridSize && d.cellSize == d0.cellSize && d.center == d0.center
    && |d0.points| <= |d.points| && d.points[..|d0.points|] == d0.points
    && forall r, c :: 0 <= r < d0.gridSize && 0 <= c < d0.gridSize && d0.grid[r][c] == 1 ==> d.grid[r][c] == 1
  }

  /** The failed probes scanned before `(x, y)` that map inside the grid have their cells set in `d`. */
  ghost predicate FailedMarked(d: Detector, outcome: (int, int) -> ProbeOutcome, x: int, y: int)
    requires Valid(d)
  {
    forall px, py :: (ScanLo <= px < ScanHi && ScanLo <= py < ScanHi && Scanned(px, py, x, y) &&
      outcome(px, py).SpawnFailed? &&
      InBounds(d.gridSize, Cell(DetectorIndex(d, px as real), DetectorIndex(d, py as real)))) ==>
      d.grid[DetectorIndex(d, py as real)][DetectorIndex(d, px as real)] == 1
  }

  /** The inner loop of the scan: the probes `(x, y)` for `y` in `range(-25, 25)`. */
  method ScanColumn(d0: Detector, d1: Detector, outcome: (int, int) -> ProbeOutcome, x: int) returns (d: Detector)
    requires Valid(d0) && Extends(d0, d1)
    requires ScanLo <= x < ScanHi
    requires FailedMarked(d1, outcome, x, ScanLo)
    requires (forall px, py :: outcome(px, py).SpawnFailed?) ==> d1.points == d0.points
    requires NewMarksExplained(d0, d1, FailedCells(d0, outcome, x, ScanLo))
    ensures Extends(d0, d)
    ensures FailedMarked(d, outcome, x, ScanHi)
    ensures (forall px, py :: outcome(px, py).SpawnFailed?) ==> d.points == d0.points
    ensures NewMarksExplained(d0, d, FailedCells(d0, outcome, x, ScanHi))
  {
    d := d1;
    var y := ScanLo;
    while y < ScanHi
      invariant ScanLo <= y <= ScanHi
      invariant Extends(d0, d)
      invariant FailedMarked(d, outcome, x, y)
      invariant (forall px, py :: outcome(px, py).SpawnFailed?) ==> d.points == d0.points
      invariant NewMarksExplained(d0, d, FailedCells(d0, outcome, x, y))
    {
      var prev := d;
      d := Probe(d, x, y, outcome(x, y));
      ScanStep(d0, prev, d, outcome, x, y);
      y := y + 1;
    }
  }

  /** One probe of a column keeps every invariant of the column loop. */
  lemma ScanStep(d0: Detector, prev: Detector, d: Detector, outcome: (int, int) -> ProbeOutcome, x: int, y: int)
    requires Valid(d0) && Extends(d0, prev)
    requires ScanLo <= x < ScanHi && ScanLo <= y < ScanHi
    requires FailedMarked(prev, outcome, x, y)
    requires (forall px, py :: outcome(px, py).SpawnFailed?) ==> prev.points == d0.points
    requires NewMarksExplained(d0, prev, FailedCells(d0, outcome, x, y))
    requires d == Probe(prev, x, y, outcome(x, y))
    ensures Extends(d0, d)
    ensures FailedMarked(d, outcome, x, y + 1)
    ensures (forall px, py :: outcome(px, py).SpawnFailed?) ==> d.points == d0.points
    ensures NewMarksExplained(d0, d, FailedCells(d0, outcome, x, y + 1))
  {
    assert d.points[..|d0.points|] == prev.points[..|d0.points|];
    StepMarked(prev, d, outcome, x, y);
    FailedCellsStep(d0, outcome, x, y);
    ProbeExplained(d0, prev, d, x, y, outcome(x, y), FailedCells(d0, outcome, x, y), FailedCells(d0, outcome, x, y + 1));
  }

  /** After probe `(x, y)` the failed probes up to and including it have their cells set. */
  lemma StepMarked(prev: Detector, d: Detector, outcome: (int, int) -> ProbeOutcome, x: int, y: int)
    requires Valid(prev)
    requires FailedMarked(prev, outcome, x, y)
    requires d == Probe(prev, x, y, outcome(x, y))
    ensures FailedMarked(d, outcome, x, y + 1)
  {
    forall px, py | (ScanLo <= px < ScanHi && ScanLo <= py < ScanHi && Scanned(px, py, x, y + 1) &&
      outcome(px, py).SpawnFailed? &&
      InBounds(d.gridSize, Cell(DetectorIndex(d, px as real), DetectorIndex(d, py as real))))
      ensures d.grid[DetectorIndex(d, py as real)][DetectorIndex(d, px as real)] == 1
    {
      if Scanned(px, py, x, y) {
        assert prev.grid[DetectorIndex(prev, py as real)][DetectorIndex(prev, px as real)] == 1;
      }
    }
  }


  /**
    The scan loop of `create_obstacle_grid`.  The detector stays valid,
    points are only ever appended (the fallback never appends any), a set
    cell stays set, the cell of every failed probe that maps inside the
    grid ends up set, and every newly set cell is a recorded collision
    point or the cell of a failed probe.
   */
  method ScanEnvironment(d0: Detector, outcome: (int, int) -> ProbeOutcome) returns (d: Detector)
    requires Valid(d0)
    ensures Valid(d)
    ensures d.gridSize == d0.gridSize && d.cellSize == d0.cellSize && d.center == d0.center
    ensures |d0.points| <= |d.points| && d.points[..|d0.points|] == d0.points
    ensures forall px, py :: (ScanLo <= px < ScanHi && ScanLo <= py < ScanHi && outcome(px, py).SpawnFailed? &&
              InBounds(d.gridSize, Cell(DetectorIndex(d, px as real), DetectorIndex(d, py as real)))) ==>
              d.grid[DetectorIndex(d, py as real)][DetectorIndex(d, px as real)] == 1
    ensures (forall px, py :: outcome(px, py).SpawnFailed?) ==> d.points == d0.points
    ensures forall r, c :: 0 <= r < d0.gridSize && 0 <= c < d0.gridSize && d0.grid[r][c] == 1 ==> d.grid[r][c] == 1
    ensures NewMarksExplained(d0, d, FailedCells(d0, outcome, ScanHi, ScanLo))
  {
    d := d0;
    var x := ScanLo;
    while x < ScanHi
      invariant ScanLo <= x <= ScanHi
      invariant Extends(d0, d)
      invariant FailedMarked(d, outcome, x, ScanLo)
      invariant (forall px, py :: outcome(px, py).SpawnFailed?) ==> d.points == d0.points
      invariant NewMarksExplained(d0, d, FailedCells(d0, outcome, x, ScanLo))
    {
      d := ScanColumn(d0, d, outcome, x);
      FailedCellsNextColumn(d0, outcome, x);
      x := x + 1;
    }
  }

  /** One probe keeps the scan's explanation of new marks, with its own cell added if it failed. */
  lemma ProbeExplained(d0: Detector, prev: Detector, d: Detector, x: int, y: int, o: ProbeOutcome, before: set<Cell>, after: set<Cell>)
    requires Valid(d0) && Valid(prev)
    requires prev.gridSize == d0.gridSize && prev.cellSize == d0.cellSize && prev.center == d0.center
    requires d == Probe(prev, x, y, o)
    requires NewMarksExplained(d0, prev, before)
    requires before <= after
    requires o.SpawnFailed? ==> Cell(DetectorIndex(d0, x as real), DetectorIndex(d0, y as real)) in after
    ensures NewMarksExplained(d0, d, after)
  {
    forall r, c | 0 <= r < d0.gridSize && 0 <= c < d0.gridSize && d.grid[r][c] == 1 && d0.grid[r][c] != 1
      ensures Cell(c, r) in d.points || Cell(c, r) in after
    {
      if prev.grid[r][c] == 1 {
        if Cell(c, r) in prev.points {
          var i :| 0 <= i < |prev.points| && prev.points[i] == Cell(c, r);
          assert d.points[..|prev.points|][i] == Cell(c, r);
        }
      }
    }
  }

  /** With the default 500 cells of 0.2 m, probe coordinate `v` maps to `250 + 5 v`. */
  lemma DefaultProbeIndex(v: int)
    ensures ToIndex(500, 0.2, v as real) == 250 + 5 * v
  {
    assert v as real / 0.2 == (5 * v) as real;
    TruncOfInt(250 + 5 * v);
  }

  /** A fresh default detector maps probe coordinate `v` to `250 + 5 v`. */
  lemma DefaultDetectorIndex(v: int)
    ensures DetectorIndex(NewDetector(500, 0.2), v as real) == 250 + 5 * v
  {
    DefaultProbeIndex(v);
  }

  /** ... so every probe of the default scan lands inside the default grid. */
  lemma DefaultScanInBounds(x: int, y: int)
    requires ScanLo <= x < ScanHi && ScanLo <= y < ScanHi
    ensures InBounds(500, Cell(ToIndex(500, 0.2, x as real), ToIndex(500, 0.2, y as real)))
  {
    DefaultProbeIndex(x);
    DefaultProbeIndex(y);
  }

  /** `ox = [p[0] for p in collision_points]`, `oy = [p[1] for p in collision_points]`. */
  function Unzip(points: seq<Cell>): (out: (seq<int>, seq<int>))
    ensures |out.0| == |points| && |out.1| == |points|
    ensures forall i :: 0 <= i < |points| ==> Cell(out.0[i], out.1[i]) == points[i]
  {
    (seq(|points|, i requires 0 <= i < |points| => points[i].x), seq(|points|, i requires 0 <= i < |points| => points[i].y))
  }
}

=== FILE: coords.dfy ===
/**
  World-to-grid coordinate mapping shared by every grid builder.

  Each script maps a world coordinate `v` (metres) to a grid index with
  `int(center + v / cell_size)` where `center = grid_size // 2`.  Python's
  `int()` on a float truncates toward zero, so `Trunc` below is not `Floor`:
  values in (-1, 0) become 0, not -1.
 */
module Coords {

  /** Python `int(x)` for a float `x`: rounds toward zero. */
  function Trunc(x: real): (r: int)
    ensures 0.0 <= x ==> r as real <= x < r as real + 1.0
    ensures x < 0.0 ==> r as real - 1.0 < x <= r as real
  {
    if x >= 0.0 then x.Floor else -((-x).Floor)
  }

  /** The grid center index `grid_size // 2` (floor division, grid_size >= 0). */
  function Center(gridSize: nat): (c: nat)
    ensures 2 * c <= gridSize <= 2 * c + 1
  {
    gridSize / 2
  }

  /** `int(center + v / cell_size)`: the grid index of world coordinate `v`. */
  function ToIndex(gridSize: nat, cellSize: real, v: real): (i: int)
    requires cellSize != 0.0
    ensures var exact := Center(gridSize) as real + v / cellSize;
            (0.0 <= exact ==> i as real <= exact < i as real + 1.0) &&
            (exact < 0.0 ==> i as real - 1.0 < exact <= i as real)
  {
    Trunc(Center(gridSize) as real + v / cellSize)
  }

  /** `max(lo, min(v, hi))`, the clamp used for the ego cell. */
  function Clamp(v: int, lo: int, hi: int): (r: int)
    requires lo <= hi
    ensures lo <= r <= hi
    ensures lo <= v <= hi ==> r == v
    ensures v < lo ==> r == lo
    ensures hi < v ==> r == hi
  {
    if v < lo then lo else if v > hi then hi else v
  }

  /** Truncation is the identity on whole numbers. */
  lemma TruncOfInt(n: int)
    ensures Trunc(n as real) == n
  {
  }

  /** Truncation never moves a value away from zero: |Trunc(x)| <= |x|. */
  lemma TruncTowardZero(x: real)
    ensures 0.0 <= x ==> 0 <= Trunc(x) && Trunc(x) as real <= x
    ensures x <= 0.0 ==> Trunc(x) <= 0 && x <= Trunc(x) as real
  {
  }

  /** Values strictly between -1 and 0 truncate to 0, whereas Floor gives -1. */
  lemma TruncSmallNegative(x: real)
    requires -1.0 < x < 0.0
    ensures Trunc(x) == 0
    ensures x.Floor == -1
  {
  }

  /** Truncation is monotone. */
  lemma TruncMonotone(x: real, y: real)
    requires x <= y
    ensures Trunc(x) <= Trunc(y)
  {
    if 0.0 <= x {
      assert Trunc(x) as real <= x <= y < Trunc(y) as real + 1.0;
    } else if y < 0.0 {
      assert Trunc(x) as real - 1.0 < x <= y <= Trunc(y) as real;
    } else {
      TruncTowardZero(x);
      TruncTowardZero(y);
    }
  }

  /** World coordinate 0 maps to the grid center. */
  lemma ToIndexOfOrigin(gridSize: nat, cellSize: real)
    requires cellSize != 0.0
    ensures ToIndex(gridSize, cellSize, 0.0) == gridSize / 2
  {
    TruncOfInt(gridSize / 2);
  }

  /** For a positive cell size the mapping is monotone in the world coordinate. */
  lemma ToIndexMonotone(gridSize: nat, cellSize: real, u: real, v: real)
    requires 0.0 < cellSize
    requires u <= v
    ensures ToIndex(gridSize, cellSize, u) <= ToIndex(gridSize, cellSize, v)
  {
    assert u / cellSize <= v / cellSize;
    TruncMonotone(Center(gridSize) as real + u / cellSize, Center(gridSize) as real + v / cellSize);
  }

  /**
    The index lands within `center + v / cell_size` rounded toward zero: a
    cell is never more than one index away from the exact position.
   */
  lemma ToIndexWithinOne(gridSize: nat, cellSize: real, v: real)
    requires cellSize != 0.0
    ensures var exact := Center(gridSize) as real + v / cellSize;
            exact - 1.0 < ToIndex(gridSize, cellSize, v) as real < exact + 1.0
  {
  }
}

=== FILE: grid.dfy ===
/**
  Occupancy grids as the scripts build them with numpy: a row-major
  two-dimensional array indexed `grid[y][x]` (row = y, column = x).
 */
module Grid {

  /** A grid index pair in the scripts' `(x, y)` order. */
  datatype Cell = Cell(x: int, y: int)

  type Grid = seq<seq<int>>

  /** `g` has shape `(rows, cols)`. */
  ghost predicate Shaped(g: Grid, rows: nat, cols: nat)
  {
    |g| == rows && forall y :: 0 <= y < rows ==> |g[y]| == cols
  }

  /** `g` is a `grid_size x grid_size` grid. */
  ghost predicate Square(g: Grid, n: nat)
  {
    Shaped(g, n, n)
  }

  /** Every row of `g` has the length of the first (numpy arrays are rectangular). */
  predicate Rectangular(g: Grid)
  {
    forall y :: 0 <= y < |g| ==> |g[y]| == |g[0]|
  }

  /** The number of columns of a rectangular grid (`grid.shape[1]`). */
  function Cols(g: Grid): nat
  {
    if |g| == 0 then 0 else |g[0]|
  }

  /** `c` addresses a cell of `g`. */
  predicate InGrid(g: Grid, c: Cell)
  {
    0 <= c.y < |g| && 0 <= c.x < |g[c.y]|
  }

  /** Both indices of `c` lie in `[0, n)`. */
  predicate InBounds(n: int, c: Cell)
  {
    0 <= c.x < n && 0 <= c.y < n
  }

  /** Every cell value of `g` belongs to `vs`. */
  ghost predicate ValuesIn(g: Grid, vs: set<int>)
  {
    forall y, x :: 0 <= y < |g| && 0 <= x < |g[y]| ==> g[y][x] in vs
  }

  /** `np.zeros((rows, cols))`. */
  function Zeros(rows: nat, cols: nat): (g: Grid)
    ensures Shaped(g, rows, cols)
    ensures forall y, x :: 0 <= y < rows && 0 <= x < cols ==> g[y][x] == 0
  {
    seq(rows, _ => seq(cols, _ => 0))
  }

  /** `grid[c.y, c.x] = v` on a copy. */
  function SetCell(g: Grid, c: Cell, v: int): (g': Grid)
    requires InGrid(g, c)
    ensures |g'| == |g|
    ensures forall y :: 0 <= y < |g| ==> |g'[y]| == |g[y]|
    ensures g'[c.y][c.x] == v
    ensures forall y, x :: 0 <= y < |g| && 0 <= x < |g[y]| && (y != c.y || x != c.x) ==> g'[y][x] == g[y][x]
  {
    g[c.y := g[c.y][c.x := v]]
  }

  /** A footprint as the `0/1` mask `cv2.fillPoly` leaves in a fresh zero mask: cells outside the grid are clipped. */
  function MaskOf(rows: nat, cols: nat, cells: set<Cell>, value: int): (m: Grid)
    ensures Shaped(m, rows, cols)
    ensures forall y, x :: 0 <= y < rows && 0 <= x < cols ==>
              m[y][x] == (if Cell(x, y) in cells then value else 0)
  {
    seq(rows, y => seq(cols, x => if Cell(x, y) in cells then value else 0))
  }
}

=== FILE: legacy_grids.dfy ===
/**
  The three `create_2d_grid` generators that draw box outlines into a
  `grid_size x grid_size x 3` image:

  - grid_generator/old/2d_grid.py: axis-aligned rectangles, a box is skipped
    unless both of its mapped corners are inside the grid;
  - grid_generator/old/2d_grid_test.py: rotated road-line boxes as closed
    polylines (walls are fetched but not drawn);
  - grid_generator/2d_grid_generator_main.py: rotated wall boxes as closed
    polylines, after segmenting road line 5 (whose result is then unused).

  The OpenCV drawing calls are the parameter `draw`; the model fixes which
  shapes are handed to it, in which order, and with which grid coordinates.
 */
module LegacyGrids {
  import opened Wrappers
  import opened Coords
  import opened Grid
  import opened Boxes

  /** A 3-channel image `grid[y][x][channel]`. */
  type Canvas = seq<seq<seq<int>>>

  /** `np.zeros((n, n, 3))`. */
  function BlankCanvas(n: nat): (img: Canvas)
    ensures |img| == n
    ensures forall y :: 0 <= y < n ==> |img[y]| == n
    ensures forall y, x :: 0 <= y < n && 0 <= x < n ==> img[y][x] == [0, 0, 0]
  {
    seq(n, _ => seq(n, _ => [0, 0, 0]))
  }

  /** Apply `draw` to each shape in order, as the generators' `for bb in ...` loops do. */
  function Paint<S>(img: Canvas, shapes: seq<S>, draw: (Canvas, S) -> Canvas): (r: Canvas)
    ensures |shapes| == 0 ==> r == img
    ensures |shapes| == 1 ==> r == draw(img, shapes[0])
    // shapes the drawing call leaves untouched (e.g. entirely off the canvas) leave the image as it was
    ensures (forall c, i :: 0 <= i < |shapes| ==> draw(c, shapes[i]) == c) ==> r == img
    decreases |shapes|
  {
    if |shapes| == 0 then img else Paint(draw(img, shapes[0]), shapes[1..], draw)
  }

  lemma {:induction false} PaintAppend<S>(img: Canvas, shapes: seq<S>, more: seq<S>, draw: (Canvas, S) -> Canvas)
    ensures Paint(img, shapes + more, draw) == Paint(Paint(img, shapes, draw), more, draw)
    decreases |shapes|
  {
    if |shapes| == 0 {
      assert shapes + more == more;
    } else {
      assert (shapes + more)[1..] == shapes[1..] + more;
      PaintAppend(draw(img, shapes[0]), shapes[1..], more, draw);
    }
  }

  // ---------------------------------------------------------------------------
  // grid_generator/old/2d_grid.py

  /** The rectangle handed to `cv2.rectangle`: `(x_min, y_min)` and `(x_max, y_max)`. */
  datatype Rect = Rect(min: Cell, max: Cell)

  /** The corner cells of `location -+ extent`, each mapped with truncation. */
  function RectOf(gridSize: nat, cellSize: real, b: Box): Rect
    requires cellSize != 0.0
  {
    Rect(Cell(ToIndex(gridSize, cellSize, b.location.x - b.extent.x),
              ToIndex(gridSize, cellSize, b.location.y - b.extent.y)),
         Cell(ToIndex(gridSize, cellSize, b.location.x + b.extent.x),
              ToIndex(gridSize, cellSize, b.location.y + b.extent.y)))
  }

  /**
    The skip rule: a box is drawn only when `x_min >= 0`, `x_max < grid_size`,
    `y_min >= 0` and `y_max < grid_size`; otherwise it is skipped (`None`).
   */
  function AxisAlignedRect(gridSize: nat, cellSize: real, b: Box): (r: Option<Rect>)
    requires cellSize != 0.0
    ensures r.Some? <==> (var q := RectOf(gridSize, cellSize, b);
                          0 <= q.min.x && q.max.x < gridSize && 0 <= q.min.y && q.max.y < gridSize)
    ensures r.Some? ==> r.value == RectOf(gridSize, cellSize, b)
  {
    var q := RectOf(gridSize, cellSize, b);
    if q.min.x < 0 || q.max.x >= gridSize || q.min.y < 0 || q.max.y >= gridSize then None else Some(q)
  }

  /**
    With non-negative extents and a positive cell size, the min corner is
    below the max corner on both axes, so both corner cells of a drawn box
    lie in `[0, grid_size)`.
   */
  lemma {:induction false} DrawnRectInBounds(gridSize: nat, cellSize: real, b: Box)
    requires 0.0 < cellSize
    requires 0.0 <= b.extent.x && 0.0 <= b.extent.y
    requires AxisAlignedRect(gridSize, cellSize, b).Some?
    ensures var r := AxisAlignedRect(gridSize, cellSize, b).value;
            r.min.x <= r.max.x && r.min.y <= r.max.y &&
            InBounds(gridSize, r.min) && InBounds(gridSize, r.max)
  {
    ToIndexMonotone(gridSize, cellSize, b.location.x - b.extent.x, b.location.x + b.extent.x);
    ToIndexMonotone(gridSize, cellSize, b.location.y - b.extent.y, b.location.y + b.extent.y);
  }

  /** The rectangles drawn, in box order, skipped boxes left out. */
  function DrawnRects(gridSize: nat, cellSize: real, boxes: seq<Box>): (rs: seq<Rect>)
    requires cellSize != 0.0
    ensures |rs| <= |boxes|
    ensures forall r :: r in rs ==> 0 <= r.min.x && r.max.x < gridSize && 0 <= r.min.y && r.max.y < gridSize
    ensures forall r :: r in rs ==> exists b :: b in boxes && AxisAlignedRect(gridSize, cellSize, b) == Some(r)
    decreases |boxes|
  {
    if |boxes| == 0 then []
    else
      var rest := DrawnRects(gridSize, cellSize, boxes[1..]);
      match AxisAlignedRect(gridSize, cellSize, boxes[0])
      case None => rest
      case Some(r) => [r] + rest
  }

  /** `create_2d_grid` of the axis-aligned generator. */
  function AxisAlignedGrid(gridSize: nat, cellSize: real, boxes: seq<Box>, draw: (Canvas, Rect) -> Canvas): (img: Canvas)
    requires cellSize != 0.0
    ensures (forall b :: b in boxes ==> AxisAlignedRect(gridSize, cellSize, b).None?) ==> img == BlankCanvas(gridSize)
  {
    var rs := DrawnRects(gridSize, cellSize, boxes);
    assert |rs| > 0 ==> rs[0] in rs;
    Paint(BlankCanvas(gridSize), rs, draw)
  }

  /** The rectangles one box contributes: none when it is skipped. */
  function RectsOf(r: Option<Rect>): seq<Rect>
  {
    if r.Some? then [r.value] else []
  }

  lemma {:induction false} DrawnRectsAppend(gridSize: nat, cellSize: real, boxes: seq<Box>, b: Box)
    requires cellSize != 0.0
    ensures DrawnRects(gridSize, cellSize, boxes + [b]) ==
            DrawnRects(gridSize, cellSize, boxes) + RectsOf(AxisAlignedRect(gridSize, cellSize, b))
    decreases |boxes|
  {
    if |boxes| == 0 {
      assert boxes + [b] == [b];
    } else {
      assert (boxes + [b])[1..] == boxes[1..] + [b];
      DrawnRectsAppend(gridSize, cellSize, boxes[1..], b);
    }
  }

  /** A skipped box leaves the image exactly as it was; a drawn one is drawn last. */
  lemma {:induction false} SkippedBoxLeavesGrid(gridSize: nat, cellSize: real, boxes: seq<Box>, b: Box,
                                                draw: (Canvas, Rect) -> Canvas)
    requires cellSize != 0.0
    ensures AxisAlignedRect(gridSize, cellSize, b).None? ==>
              AxisAlignedGrid(gridSize, cellSize, boxes + [b], draw) == AxisAlignedGrid(gridSize, cellSize, boxes, draw)
    ensures AxisAlignedRect(gridSize, cellSize, b).Some? ==>
              AxisAlignedGrid(gridSize, cellSize, boxes + [b], draw) ==
              draw(AxisAlignedGrid(gridSize, cellSize, boxes, draw), AxisAlignedRect(gridSize, cellSize, b).value)
  {
    DrawnRectsAppend(gridSize, cellSize, boxes, b);
    var rs := DrawnRects(gridSize, cellSize, boxes);
    match AxisAlignedRect(gridSize, cellSize, b)
    case None =>
      assert rs + [] == rs;
    case Some(r) =>
      PaintAppend(BlankCanvas(gridSize), rs, [r], draw);
      assert [r][1..] == [];
  }

  // ---------------------------------------------------------------------------
  // grid_generator/old/2d_grid_test.py and grid_generator/2d_grid_generator_main.py

  /** The closed polygons handed to `cv2.polylines`, one per box, in box order. */
  function Polygons(gridSize: nat, cellSize: real, boxes: seq<Box>): (ps: seq<seq<Cell>>)
    requires cellSize != 0.0
    ensures |ps| == |boxes|
    ensures forall i :: 0 <= i < |boxes| ==> ps[i] == GridCorners(gridSize, cellSize, boxes[i])
  {
    seq(|boxes|, i requires 0 <= i < |boxes| => GridCorners(gridSize, cellSize, boxes[i]))
  }

  /** The old test generator: only road-line boxes are drawn; walls are fetched but unused. */
  function RoadLineGrid(gridSize: nat, cellSize: real, walls: seq<Box>, roadLines: seq<Box>,
                        draw: (Canvas, seq<Cell>) -> Canvas): (img: Canvas)
    requires cellSize != 0.0
    ensures |roadLines| == 0 ==> img == BlankCanvas(gridSize)
    ensures |roadLines| == 1 ==> img == draw(BlankCanvas(gridSize), GridCorners(gridSize, cellSize, roadLines[0]))
  {
    Paint(BlankCanvas(gridSize), Polygons(gridSize, cellSize, roadLines), draw)
  }

  /** The walls never influence the old test generator's image. */
  lemma RoadLineGridIgnoresWalls(gridSize: nat, cellSize: real, walls: seq<Box>, walls': seq<Box>, roadLines: seq<Box>,
                                 draw: (Canvas, seq<Cell>) -> Canvas)
    requires cellSize != 0.0
    ensures RoadLineGrid(gridSize, cellSize, walls, roadLines, draw) ==
            RoadLineGrid(gridSize, cellSize, walls', roadLines, draw)
  {
  }

  /** Each further road line is drawn once, on top of the image of the lines before it. */
  lemma {:induction false} RoadLineGridDrawsLines(gridSize: nat, cellSize: real, walls: seq<Box>, roadLines: seq<Box>, l: Box,
                                                  draw: (Canvas, seq<Cell>) -> Canvas)
    requires cellSize != 0.0
    ensures RoadLineGrid(gridSize, cellSize, walls, roadLines + [l], draw) ==
            draw(RoadLineGrid(gridSize, cellSize, walls, roadLines, draw), GridCorners(gridSize, cellSize, l))
  {
    var ps := Polygons(gridSize, cellSize, roadLines);
    assert Polygons(gridSize, cellSize, roadLines + [l]) == ps + [GridCorners(gridSize, cellSize, l)];
    PaintAppend(BlankCanvas(gridSize), ps, [GridCorners(gridSize, cellSize, l)], draw);
    assert [GridCorners(gridSize, cellSize, l)][1..] == [];
  }

  /**
    The main generator: `segment_parking_lines(roadlines[5])` is evaluated
    (so fewer than six road lines raise `IndexError`, modelled as `None`),
    its result is discarded, and only the walls are drawn.
   */
  function WallOutlineGrid(gridSize: nat, cellSize: real, walls: seq<Box>, roadLines: seq<Box>,
                          draw: (Canvas, seq<Cell>) -> Canvas): (r: Option<Canvas>)
    requires cellSize != 0.0
    ensures r.None? <==> |roadLines| <= 5
    ensures |roadLines| > 5 && |walls| == 0 ==> r == Some(BlankCanvas(gridSize))
  {
    if |roadLines| <= 5 then None
    else Some(Paint(BlankCanvas(gridSize), Polygons(gridSize, cellSize, walls), draw))
  }

  /** Whenever the main generator succeeds, the road lines' contents do not matter and each wall is drawn once, in order. */
  lemma {:induction false} WallOutlineGridDrawsWalls(gridSize: nat, cellSize: real, walls: seq<Box>, w: Box,
                                                     roadLines: seq<Box>, draw: (Canvas, seq<Cell>) -> Canvas)
    requires cellSize != 0.0
    requires |roadLines| > 5
    ensures WallOutlineGrid(gridSize, cellSize, walls + [w], roadLines, draw).Some?
    ensures WallOutlineGrid(gridSize, cellSize, walls + [w], roadLines, draw).value ==
            draw(WallOutlineGrid(gridSize, cellSize, walls, roadLines, draw).value, GridCorners(gridSize, cellSize, w))
  {
    var ps := Polygons(gridSize, cellSize, walls);
    assert Polygons(gridSize, cellSize, walls + [w]) == ps + [GridCorners(gridSize, cellSize, w)];
    PaintAppend(BlankCanvas(gridSize), ps, [GridCorners(gridSize, cellSize, w)], draw);
    assert [GridCorners(gridSize, cellSize, w)][1..] == [];
  }
}

=== FILE: mark_compositor.dfy ===
/**
  The value-overwrite compositor of occupation_grid_with_grid_generator/test2.py.

  `mark_bounding_box` fills the box polygon with `value` into a fresh zero
  mask and then writes `value` wherever the mask equals `value`.  Walls are
  marked with 1 into the static grid; every animation frame marks the ego
  vehicle with 2 into a COPY of the static grid (`mark_ego_vehicle`), and
  the frame is coloured through a three-entry colour map.
 */
module MarkCompositor {
  import opened Grid
  import opened Boxes
  import opened OrCompositor

  /** The value the static walls are marked with. */
  const Static := 1
  /** The value the ego footprint is marked with. */
  const Ego := 2

  /**
    `grid[mask == value] = value` with `mask` the fill of `cells` into a zero
    mask.  The mask test is kept literally: when `value` is 0 every zero
    mask cell matches as well.
   */
  function Mark(n: nat, g: Grid, cells: set<Cell>, value: int): (r: Grid)
    requires Square(g, n)
    ensures Square(r, n)
    ensures value != 0 ==> forall y, x :: 0 <= y < n && 0 <= x < n ==>
              r[y][x] == (if Cell(x, y) in cells then value else g[y][x])
  {
    var mask := MaskOf(n, n, cells, value);
    seq(n, y requires 0 <= y < n => seq(n, x requires 0 <= x < n => if mask[y][x] == value then value else g[y][x]))
  }

  /** Marking with value 0 would clear the whole grid, not only the footprint. */
  lemma MarkZeroClearsGrid(n: nat, g: Grid, cells: set<Cell>)
    requires Square(g, n)
    ensures Mark(n, g, cells, 0) == Zeros(n, n)
  {
    var r := Mark(n, g, cells, 0);
    forall y | 0 <= y < n ensures r[y] == Zeros(n, n)[y] {
    }
  }

  /** Marking the same cells with the same value twice is the same as once. */
  lemma MarkIdempotent(n: nat, g: Grid, cells: set<Cell>, value: int)
    requires Square(g, n)
    ensures Mark(n, Mark(n, g, cells, value), cells, value) == Mark(n, g, cells, value)
  {
    var once := Mark(n, g, cells, value);
    var twice := Mark(n, once, cells, value);
    forall y | 0 <= y < n ensures twice[y] == once[y] {
    }
  }

  /** `create_2d_obstacle_grid` of test2.py: every wall marked with 1, in order. */
  function StaticGrid(n: nat, cellSize: real, fill: seq<Cell> -> set<Cell>, walls: seq<Box>): (g: Grid)
    requires cellSize != 0.0
    ensures Square(g, n)
    ensures ValuesIn(g, {0, Static})
    ensures forall y, x :: 0 <= y < n && 0 <= x < n ==>
              (g[y][x] == Static <==> InSomeFootprint(n, cellSize, fill, walls, Cell(x, y)))
    decreases |walls|
  {
    if |walls| == 0 then Zeros(n, n)
    else
      var prev := StaticGrid(n, cellSize, fill, walls[..|walls| - 1]);
      InSomeFootprintSnoc(n, cellSize, fill, walls);
      Mark(n, prev, Footprint(n, cellSize, fill, walls[|walls| - 1]), Static)
  }

  lemma InSomeFootprintSnoc(n: nat, cellSize: real, fill: seq<Cell> -> set<Cell>, walls: seq<Box>)
    requires cellSize != 0.0
    requires |walls| > 0
    ensures forall c :: InSomeFootprint(n, cellSize, fill, walls, c) <==>
              InSomeFootprint(n, cellSize, fill, walls[..|walls| - 1], c) ||
              c in Footprint(n, cellSize, fill, walls[|walls| - 1])
  {
    var init := walls[..|walls| - 1];
    forall c | InSomeFootprint(n, cellSize, fill, walls, c)
      ensures InSomeFootprint(n, cellSize, fill, init, c) || c in Footprint(n, cellSize, fill, walls[|walls| - 1])
    {
      var i :| 0 <= i < |walls| && c in Footprint(n, cellSize, fill, walls[i]);
      if i < |walls| - 1 {
        assert init[i] == walls[i];
      }
    }
    forall c | InSomeFootprint(n, cellSize, fill, init, c)
      ensures InSomeFootprint(n, cellSize, fill, walls, c)
    {
      var i :| 0 <= i < |init| && c in Footprint(n, cellSize, fill, init[i]);
      assert walls[i] == init[i];
    }
  }

  /** Marking the same wall a second time right after the first changes nothing. */
  lemma {:induction false} StaticGridRepeatIdempotent(n: nat, cellSize: real, fill: seq<Cell> -> set<Cell>, walls: seq<Box>, b: Box)
    requires cellSize != 0.0
    ensures StaticGrid(n, cellSize, fill, walls + [b, b]) == StaticGrid(n, cellSize, fill, walls + [b])
  {
    var w2 := walls + [b, b];
    assert w2[..|w2| - 1] == walls + [b];
    assert (walls + [b])[..|walls + [b]| - 1] == walls;
    MarkIdempotent(n, StaticGrid(n, cellSize, fill, walls), Footprint(n, cellSize, fill, b), Static);
  }

  /** Static grids coincide with the OR-merge compositor's wall grid on the same walls. */
  lemma StaticGridAgreesWithOrMerge(n: nat, cellSize: real, fill: seq<Cell> -> set<Cell>, walls: seq<Box>)
    requires cellSize != 0.0
    ensures StaticGrid(n, cellSize, fill, walls) == OrCompositor.WallGrid(n, cellSize, fill, walls)
  {
    var a := StaticGrid(n, cellSize, fill, walls);
    var b := OrCompositor.WallGrid(n, cellSize, fill, walls);
    forall y | 0 <= y < n ensures a[y] == b[y] {
      forall x | 0 <= x < n ensures a[y][x] == b[y][x] {
        assert a[y][x] in {0, 1} && b[y][x] in {0, 1};
      }
    }
  }

  /**
    `mark_ego_vehicle`: a copy of the grid with the ego footprint set to 2.
    The input grid is a value and is not modified; the result differs from
    it exactly on the footprint cells, where 2 overrides any static 1.
   */
  function MarkEgo(n: nat, cellSize: real, fill: seq<Cell> -> set<Cell>, g: Grid, ego: Box): (r: Grid)
    requires cellSize != 0.0
    requires Square(g, n)
    ensures Square(r, n)
    ensures forall y, x :: 0 <= y < n && 0 <= x < n && Cell(x, y) in Footprint(n, cellSize, fill, ego) ==> r[y][x] == Ego
    ensures forall y, x :: 0 <= y < n && 0 <= x < n && Cell(x, y) !in Footprint(n, cellSize, fill, ego) ==> r[y][x] == g[y][x]
    ensures ValuesIn(g, {0, Static}) ==> ValuesIn(r, {0, Static, Ego})
  {
    Mark(n, g, Footprint(n, cellSize, fill, ego), Ego)
  }

  /**
    The frames of the `while True` loop of `visualize_grid_animated`, one per
    ego pose the simulator reports: each iteration marks the ego on a copy
    of `grid`, and the loop never assigns `grid`, so the next iteration
    starts from the same static grid.
   */
  function Animate(n: nat, cellSize: real, fill: seq<Cell> -> set<Cell>, g: Grid, poses: seq<Box>): (frames: seq<Grid>)
    requires cellSize != 0.0
    requires Square(g, n)
    ensures |frames| == |poses|
    ensures forall k :: 0 <= k < |frames| ==> Square(frames[k], n)
    decreases |poses|
  {
    if |poses| == 0 then []
    else [MarkEgo(n, cellSize, fill, g, poses[0])] + Animate(n, cellSize, fill, g, poses[1..])
  }

  /** Frame `k` of the loop is the ego of pose `k` marked on the static grid itself. */
  lemma {:induction false} AnimateFrame(n: nat, cellSize: real, fill: seq<Cell> -> set<Cell>, g: Grid, poses: seq<Box>, k: nat)
    requires cellSize != 0.0
    requires Square(g, n)
    requires k < |poses|
    ensures Animate(n, cellSize, fill, g, poses)[k] == MarkEgo(n, cellSize, fill, g, poses[k])
    decreases k
  {
    if k > 0 {
      AnimateFrame(n, cellSize, fill, g, poses[1..], k - 1);
    }
  }

  /**
    Footprints of earlier frames never accumulate: frame `k` of the loop
    differs from the static grid only on the footprint of ego pose `k`,
    and no cell outside that footprint is 2.
   */
  lemma FramesDoNotAccumulate(n: nat, cellSize: real, fill: seq<Cell> -> set<Cell>, walls: seq<Box>,
                              poses: seq<Box>, k: nat, y: int, x: int)
    requires cellSize != 0.0
    requires k < |poses|
    requires 0 <= y < n && 0 <= x < n
    ensures var base := StaticGrid(n, cellSize, fill, walls);
            var frame := Animate(n, cellSize, fill, base, poses)[k];
            (Cell(x, y) in Footprint(n, cellSize, fill, poses[k]) ==> frame[y][x] == Ego) &&
            (Cell(x, y) !in Footprint(n, cellSize, fill, poses[k]) ==> frame[y][x] == base[y][x] && frame[y][x] != Ego)
  {
    var base := StaticGrid(n, cellSize, fill, walls);
    AnimateFrame(n, cellSize, fill, base, poses, k);
    assert base[y][x] in {0, Static};
  }

  /** `color_map`: white for free, black for static, `[255, 0, 0]` for the ego. */
  const ColorMap: seq<seq<int>> := [[255, 255, 255], [0, 0, 0], [255, 0, 0]]

  /**
    `color_map[current_grid]`: the lookup is in range because every cell is
    0, 1 or 2, and the three colours are distinct, so the cell value can be
    read back from its colour.
   */
  function Colorize(g: Grid): (img: seq<seq<seq<int>>>)
    requires ValuesIn(g, {0, Static, Ego})
    ensures |img| == |g|
    ensures forall y :: 0 <= y < |g| ==> |img[y]| == |g[y]|
    ensures forall y, x :: 0 <= y < |g| && 0 <= x < |g[y]| ==>
              (img[y][x] == [0, 0, 0] <==> g[y][x] == Static) &&
              (img[y][x] == [255, 0, 0] <==> g[y][x] == Ego) &&
              (img[y][x] == [255, 255, 255] <==> g[y][x] == 0)
  {
    seq(|g|, y requires 0 <= y < |g| => seq(|g[y]|, x requires 0 <= x < |g[y]| => ColorMap[g[y][x]]))
  }

  /** Every frame of the animation can be coloured: its cells are 0, 1 or 2. */
  lemma FrameColorable(n: nat, cellSize: real, fill: seq<Cell> -> set<Cell>, walls: seq<Box>, ego: Box)
    requires cellSize != 0.0
    ensures ValuesIn(MarkEgo(n, cellSize, fill, StaticGrid(n, cellSize, fill, walls), ego), {0, Static, Ego})
  {
  }
}

=== FILE: obstacle_list.dfy ===
/**
  `get_obstacle_lists`: a row-major scan (y outer, x inner, both ascending)
  collecting the cells equal to a value into parallel `ox`/`oy` lists.  The
  same scan with value 2 is `np.where(grid == 2)`, which the animation loop
  uses to find the ego footprint.
 */
module ObstacleList {
  import opened Grid

  /** Row-major order on cells: by row, then by column. */
  predicate Before(a: Cell, b: Cell)
  {
    a.y < b.y || (a.y == b.y && a.x < b.x)
  }

  /** Strictly increasing in row-major order, hence also free of repeats. */
  ghost predicate RowMajorSorted(s: seq<Cell>)
  {
    forall i, j :: 0 <= i < j < |s| ==> Before(s[i], s[j])
  }

  /** Reference definition: the hits of row `y` among its first `n` columns, left to right. */
  function RowHits(g: Grid, y: nat, n: nat, v: int): seq<Cell>
    requires y < |g| && n <= |g[y]|
  {
    if n == 0 then []
    else RowHits(g, y, n - 1, v) + (if g[y][n - 1] == v then [Cell(n - 1, y)] else [])
  }

  /** Reference definition: the hits of the first `m` rows, top to bottom. */
  function Hits(g: Grid, m: nat, v: int): seq<Cell>
    requires m <= |g|
  {
    if m == 0 then [] else Hits(g, m - 1, v) + RowHits(g, m - 1, |g[m - 1]|, v)
  }

  /** The set of cells of `g` holding `v`. */
  ghost function CellsWith(g: Grid, v: int): set<Cell>
  {
    set y, x | 0 <= y < |g| && 0 <= x < |g[y]| && g[y][x] == v :: Cell(x, y)
  }

  lemma {:induction false} RowHitsSpec(g: Grid, y: nat, n: nat, v: int)
    requires y < |g| && n <= |g[y]|
    ensures forall c :: c in RowHits(g, y, n, v) <==> c.y == y && 0 <= c.x < n && g[y][c.x] == v
    ensures RowMajorSorted(RowHits(g, y, n, v))
  {
    if n > 0 {
      RowHitsSpec(g, y, n - 1, v);
    }
  }

  lemma {:induction false} HitsSpec(g: Grid, m: nat, v: int)
    requires m <= |g|
    ensures forall c :: c in Hits(g, m, v) <==> 0 <= c.y < m && 0 <= c.x < |g[c.y]| && g[c.y][c.x] == v
    ensures RowMajorSorted(Hits(g, m, v))
  {
    if m > 0 {
      HitsSpec(g, m - 1, v);
      RowHitsSpec(g, m - 1, |g[m - 1]|, v);
      var a, b := Hits(g, m - 1, v), RowHits(g, m - 1, |g[m - 1]|, v);
      forall i, j | 0 <= i < j < |a + b|
        ensures Before((a + b)[i], (a + b)[j])
      {
        if j < |a| {
        } else if i < |a| {
          assert (a + b)[i] in a && (a + b)[j] in b;
        } else {
          assert (a + b)[i] == b[i - |a|] && (a + b)[j] == b[j - |a|];
        }
      }
    }
  }

  /** A sorted sequence has no repeats, so it has as many elements as its set. */
  lemma {:induction false} SortedCard(s: seq<Cell>)
    requires RowMajorSorted(s)
    ensures |set c | c in s| == |s|
  {
    if |s| > 0 {
      var tail := s[1..];
      assert RowMajorSorted(tail) by {
        forall i, j | 0 <= i < j < |tail| ensures Before(tail[i], tail[j]) {
          assert tail[i] == s[i + 1] && tail[j] == s[j + 1];
        }
      }
      SortedCard(tail);
      assert s[0] !in tail by {
        forall k | 0 <= k < |tail| ensures tail[k] != s[0] {
          assert Before(s[0], s[k + 1]);
        }
      }
      assert (set c | c in s) == {s[0]} + (set c | c in tail) by {
        assert s == [s[0]] + tail;
      }
    }
  }

  /** The hits of the whole grid are exactly its `v`-cells, each once, in row-major order. */
  lemma HitsAreCellsWith(g: Grid, v: int)
    ensures (set c | c in Hits(g, |g|, v)) == CellsWith(g, v)
    ensures |Hits(g, |g|, v)| == |CellsWith(g, v)|
    ensures RowMajorSorted(Hits(g, |g|, v))
  {
    HitsSpec(g, |g|, v);
    var s := Hits(g, |g|, v);
    forall c | c in CellsWith(g, v) ensures c in s {
    }
    SortedCard(s);
  }

  /** Lists that spell out the hits of the whole grid pointwise have the properties of `Scan`. */
  lemma ListsOfHits(g: Grid, v: int, hits: seq<Cell>, xs: seq<int>, ys: seq<int>)
    requires Rectangular(g)
    requires |xs| == |ys| == |hits|
    requires forall i :: 0 <= i < |hits| ==> hits[i] == Cell(xs[i], ys[i])
    requires hits == Hits(g, |g|, v)
    ensures forall i :: 0 <= i < |xs| ==> 0 <= ys[i] < |g| && 0 <= xs[i] < |g[ys[i]]| && g[ys[i]][xs[i]] == v
    ensures forall y, x :: 0 <= y < |g| && 0 <= x < |g[y]| && g[y][x] == v ==>
              exists i :: 0 <= i < |xs| && xs[i] == x && ys[i] == y
    ensures forall i, j :: 0 <= i < j < |xs| ==> Before(Cell(xs[i], ys[i]), Cell(xs[j], ys[j]))
    ensures |xs| == |CellsWith(g, v)|
  {
    HitsAreCellsWith(g, v);
    HitsSpec(g, |g|, v);
    forall y, x | 0 <= y < |g| && 0 <= x < |g[y]| && g[y][x] == v
      ensures exists i :: 0 <= i < |xs| && xs[i] == x && ys[i] == y
    {
      assert Cell(x, y) in hits;
      var i :| 0 <= i < |hits| && hits[i] == Cell(x, y);
      assert xs[i] == x && ys[i] == y;
    }
    forall i | 0 <= i < |xs|
      ensures 0 <= ys[i] < |g| && 0 <= xs[i] < |g[ys[i]]| && g[ys[i]][xs[i]] == v
    {
      assert hits[i] in hits;
    }
  }

  /**
    The scan loop of `get_obstacle_lists` over a `rows x cols` grid, for any
    value `v`: `xs[i], ys[i]` is the i-th cell equal to `v` in row-major order.
   */
  method Scan(g: Grid, v: int) returns (xs: seq<int>, ys: seq<int>)
    requires Rectangular(g)
    ensures |xs| == |ys|
    ensures forall i :: 0 <= i < |xs| ==> 0 <= ys[i] < |g| && 0 <= xs[i] < |g[ys[i]]| && g[ys[i]][xs[i]] == v
    ensures forall y, x :: 0 <= y < |g| && 0 <= x < |g[y]| && g[y][x] == v ==>
              exists i :: 0 <= i < |xs| && xs[i] == x && ys[i] == y
    ensures forall i, j :: 0 <= i < j < |xs| ==> Before(Cell(xs[i], ys[i]), Cell(xs[j], ys[j]))
    ensures |xs| == |CellsWith(g, v)|
  {
    var cols := Cols(g);
    ghost var hits: seq<Cell> := [];
    xs, ys := [], [];
    var y := 0;
    while y < |g|
      invariant 0 <= y <= |g|
      invariant |xs| == |ys| == |hits|
      invariant forall i :: 0 <= i < |hits| ==> hits[i] == Cell(xs[i], ys[i])
      invariant hits == Hits(g, y, v)
    {
      var x := 0;
      while x < cols
        invariant 0 <= x <= cols == |g[y]|
        invariant |xs| == |ys| == |hits|
        invariant forall i :: 0 <= i < |hits| ==> hits[i] == Cell(xs[i], ys[i])
        invariant hits == Hits(g, y, v) + RowHits(g, y, x, v)
      {
        if g[y][x] == v {
          xs, ys, hits := xs + [x], ys + [y], hits + [Cell(x, y)];
        }
        x := x + 1;
      }
      y := y + 1;
    }
    ListsOfHits(g, v, hits, xs, ys);
  }

  /** `get_obstacle_lists`: the cells equal to exactly 1, as `ox` (columns) and `oy` (rows). */
  method ObstacleLists(g: Grid) returns (ox: seq<int>, oy: seq<int>)
    requires Rectangular(g)
    ensures |ox| == |oy| == |CellsWith(g, 1)|
    ensures forall i :: 0 <= i < |ox| ==> 0 <= oy[i] < |g| && 0 <= ox[i] < |g[oy[i]]| && g[oy[i]][ox[i]] == 1
    ensures forall y, x :: 0 <= y < |g| && 0 <= x < |g[y]| && g[y][x] == 1 ==>
              exists i :: 0 <= i < |ox| && ox[i] == x && oy[i] == y
    ensures forall i, j :: 0 <= i < j < |ox| ==> Before(Cell(ox[i], oy[i]), Cell(ox[j], oy[j]))
  {
    ox, oy := Scan(g, 1);
  }
}

=== FILE: or_compositor.dfy ===
/**
  `create_2d_obstacle_grid` of occupation_grid_with_grid_generator/test.py:
  every wall footprint is OR-merged into a 0/1 grid, then the ego center
  cell, clamped into the grid, is set to 1.

  `cv2.fillPoly` is the parameter `fill`, which turns a polygon of grid
  corners into the set of cells it covers; cells outside the grid are
  clipped when the mask is built.
 */
module OrCompositor {
  import opened Coords
  import opened Grid
  import opened Boxes

  ghost predicate Binary(g: Grid)
  {
    ValuesIn(g, {0, 1})
  }

  /** Every grid of `ms` is `n x n`. */
  ghost predicate AllSquare(ms: seq<Grid>, n: nat)
  {
    forall i :: 0 <= i < |ms| ==> Square(ms[i], n)
  }

  /** `np.logical_or(grid, mask).astype(np.uint8)` on `n x n` grids. */
  function OrMerge(n: nat, g: Grid, m: Grid): (r: Grid)
    requires Square(g, n) && Square(m, n)
    ensures Square(r, n)
    ensures Binary(r)
    ensures forall y, x :: 0 <= y < n && 0 <= x < n ==> (r[y][x] == 1 <==> g[y][x] != 0 || m[y][x] != 0)
  {
    seq(n, y requires 0 <= y < n =>
      seq(n, x requires 0 <= x < n => if g[y][x] != 0 || m[y][x] != 0 then 1 else 0))
  }

  /** The wall loop: merge the masks in order, first to last. */
  function MergeAll(n: nat, g: Grid, ms: seq<Grid>): (r: Grid)
    requires Square(g, n) && AllSquare(ms, n)
    ensures Square(r, n)
    decreases |ms|
  {
    if |ms| == 0 then g else OrMerge(n, MergeAll(n, g, ms[..|ms| - 1]), ms[|ms| - 1])
  }

  /** Some mask of `ms` covers cell `(x, y)`. */
  ghost predicate Covered(ms: seq<Grid>, n: nat, y: int, x: int)
    requires AllSquare(ms, n) && 0 <= y < n && 0 <= x < n
  {
    exists i :: 0 <= i < |ms| && ms[i][y][x] != 0
  }

  /**
    After merging into a 0/1 grid, the grid is still 0/1 and a cell is 1
    iff it was 1 before or some mask covers it.
   */
  lemma {:induction false} MergeAllCells(n: nat, g: Grid, ms: seq<Grid>)
    requires Square(g, n) && AllSquare(ms, n)
    requires Binary(g)
    ensures Binary(MergeAll(n, g, ms))
    ensures forall y, x :: 0 <= y < n && 0 <= x < n ==>
              (MergeAll(n, g, ms)[y][x] == 1 <==> g[y][x] == 1 || Covered(ms, n, y, x))
    decreases |ms|
  {
    if |ms| > 0 {
      var init := ms[..|ms| - 1];
      MergeAllCells(n, g, init);
      forall y, x | 0 <= y < n && 0 <= x < n
        ensures MergeAll(n, g, ms)[y][x] == 1 <==> g[y][x] == 1 || Covered(ms, n, y, x)
      {
        if Covered(ms, n, y, x) {
          var i :| 0 <= i < |ms| && ms[i][y][x] != 0;
          if i < |ms| - 1 {
            assert init[i] == ms[i];
          }
        }
        if Covered(init, n, y, x) {
          var i :| 0 <= i < |init| && init[i][y][x] != 0;
          assert ms[i] == init[i];
        }
      }
    }
  }

  /** Starting from all zeros, a cell is 1 iff at least one mask covers it. */
  lemma MergeFromZeros(n: nat, ms: seq<Grid>)
    requires AllSquare(ms, n)
    ensures Binary(MergeAll(n, Zeros(n, n), ms))
    ensures forall y, x :: 0 <= y < n && 0 <= x < n ==>
              (MergeAll(n, Zeros(n, n), ms)[y][x] == 1 <==> Covered(ms, n, y, x))
  {
    MergeAllCells(n, Zeros(n, n), ms);
  }

  /** The result does not depend on the order (or repetition) of the masks. */
  lemma MergeOrderIrrelevant(n: nat, g: Grid, ms: seq<Grid>, ms': seq<Grid>)
    requires Square(g, n) && AllSquare(ms, n) && AllSquare(ms', n)
    requires forall m :: m in ms <==> m in ms'
    requires Binary(g)
    ensures MergeAll(n, g, ms) == MergeAll(n, g, ms')
  {
    MergeAllCells(n, g, ms);
    MergeAllCells(n, g, ms');
    var a, b := MergeAll(n, g, ms), MergeAll(n, g, ms');
    forall y | 0 <= y < n ensures a[y] == b[y] {
      forall x | 0 <= x < n ensures a[y][x] == b[y][x] {
        assert a[y][x] in {0, 1} && b[y][x] in {0, 1};
        if Covered(ms, n, y, x) {
          var i :| 0 <= i < |ms| && ms[i][y][x] != 0;
          assert ms[i] in ms';
          var j :| 0 <= j < |ms'| && ms'[j] == ms[i];
        }
        if Covered(ms', n, y, x) {
          var j :| 0 <= j < |ms'| && ms'[j][y][x] != 0;
          assert ms'[j] in ms;
          var i :| 0 <= i < |ms| && ms[i] == ms'[j];
        }
      }
    }
  }

  /** Merging the same mask again changes nothing. */
  lemma MergeIdempotent(n: nat, g: Grid, m: Grid)
    requires Square(g, n) && Square(m, n)
    ensures OrMerge(n, OrMerge(n, g, m), m) == OrMerge(n, g, m)
  {
    var once := OrMerge(n, g, m);
    var twice := OrMerge(n, once, m);
    forall y | 0 <= y < n ensures twice[y] == once[y] {
      forall x | 0 <= x < n ensures twice[y][x] == once[y][x] {
        assert twice[y][x] in {0, 1} && once[y][x] in {0, 1};
      }
    }
  }

  /** A cell that is 1 stays 1 under any further merges. */
  lemma {:induction false} MergeMonotone(n: nat, g: Grid, ms: seq<Grid>, y: int, x: int)
    requires Square(g, n) && AllSquare(ms, n)
    requires 0 <= y < n && 0 <= x < n && g[y][x] == 1
    ensures MergeAll(n, g, ms)[y][x] == 1
    decreases |ms|
  {
    if |ms| > 0 {
      MergeMonotone(n, g, ms[..|ms| - 1], y, x);
    }
  }

  /** The cells `cv2.fillPoly` covers for the polygon of box `b`'s grid corners. */
  function Footprint(gridSize: nat, cellSize: real, fill: seq<Cell> -> set<Cell>, b: Box): set<Cell>
    requires cellSize != 0.0
  {
    fill(GridCorners(gridSize, cellSize, b))
  }

  /**
    A box of zero extent collapses to a single point: all four of its grid
    corners are the cell of its location, whatever its yaw.
   */
  lemma PointBoxFootprint(gridSize: nat, cellSize: real, fill: seq<Cell> -> set<Cell>, b: Box)
    requires cellSize != 0.0
    requires b.extent.x == 0.0 && b.extent.y == 0.0
    ensures var cc := CornerCell(gridSize, cellSize, b.location);
            Footprint(gridSize, cellSize, fill, b) == fill([cc, cc, cc, cc])
  {
    var cs := Corners(b.location, b.extent, b.yaw);
    assert cs[0] == b.location && cs[1] == b.location && cs[2] == b.location && cs[3] == b.location;
  }

  /** The 0/1 masks of the walls, in wall order. */
  function WallMasks(gridSize: nat, cellSize: real, fill: seq<Cell> -> set<Cell>, walls: seq<Box>): (ms: seq<Grid>)
    requires cellSize != 0.0
    ensures |ms| == |walls|
    ensures AllSquare(ms, gridSize)
    ensures forall i, y, x :: 0 <= i < |walls| && 0 <= y < gridSize && 0 <= x < gridSize ==>
              (ms[i][y][x] != 0 <==> Cell(x, y) in Footprint(gridSize, cellSize, fill, walls[i]))
  {
    seq(|walls|, i requires 0 <= i < |walls| => MaskOf(gridSize, gridSize, Footprint(gridSize, cellSize, fill, walls[i]), 1))
  }

  /** Some wall's footprint contains cell `c`. */
  ghost predicate InSomeFootprint(gridSize: nat, cellSize: real, fill: seq<Cell> -> set<Cell>, walls: seq<Box>, c: Cell)
    requires cellSize != 0.0
  {
    exists i :: 0 <= i < |walls| && c in Footprint(gridSize, cellSize, fill, walls[i])
  }

  /** The ego cell: the mapped center of the ego box, clamped into `[0, grid_size - 1]` on both axes. */
  function EgoCell(gridSize: nat, cellSize: real, ego: Box): (c: Cell)
    requires cellSize != 0.0
    requires gridSize >= 1
    ensures InBounds(gridSize, c)
    ensures InBounds(gridSize, CornerCell(gridSize, cellSize, ego.location)) ==> c == CornerCell(gridSize, cellSize, ego.location)
    // each axis is clamped on its own
    ensures var i := ToIndex(gridSize, cellSize, ego.location.x);
            (0 <= i < gridSize ==> c.x == i) && (i < 0 ==> c.x == 0) && (i >= gridSize ==> c.x == gridSize - 1)
    ensures var j := ToIndex(gridSize, cellSize, ego.location.y);
            (0 <= j < gridSize ==> c.y == j) && (j < 0 ==> c.y == 0) && (j >= gridSize ==> c.y == gridSize - 1)
  {
    Cell(Clamp(ToIndex(gridSize, cellSize, ego.location.x), 0, gridSize - 1),
         Clamp(ToIndex(gridSize, cellSize, ego.location.y), 0, gridSize - 1))
  }

  /** The grid after the wall loop, before the ego write. */
  function WallGrid(gridSize: nat, cellSize: real, fill: seq<Cell> -> set<Cell>, walls: seq<Box>): (g: Grid)
    requires cellSize != 0.0
    ensures Square(g, gridSize)
    ensures Binary(g)
    ensures forall y, x :: 0 <= y < gridSize && 0 <= x < gridSize ==>
              (g[y][x] == 1 <==> InSomeFootprint(gridSize, cellSize, fill, walls, Cell(x, y)))
  {
    var ms := WallMasks(gridSize, cellSize, fill, walls);
    MergeFromZeros(gridSize, ms);
    var g := MergeAll(gridSize, Zeros(gridSize, gridSize), ms);
    forall y, x | 0 <= y < gridSize && 0 <= x < gridSize
      ensures Covered(ms, gridSize, y, x) <==> InSomeFootprint(gridSize, cellSize, fill, walls, Cell(x, y))
    {
      if InSomeFootprint(gridSize, cellSize, fill, walls, Cell(x, y)) {
        var i :| 0 <= i < |walls| && Cell(x, y) in Footprint(gridSize, cellSize, fill, walls[i]);
        assert ms[i][y][x] != 0;
      }
    }
    g
  }

  /**
    `create_2d_obstacle_grid`: the result is a 0/1 grid whose 1-cells are
    exactly the cells covered by some wall footprint plus the ego cell, and
    the ego write touches no other cell.
   */
  function ObstacleGrid(gridSize: nat, cellSize: real, fill: seq<Cell> -> set<Cell>, walls: seq<Box>, ego: Box): (g: Grid)
    requires cellSize != 0.0
    requires gridSize >= 1
    ensures Square(g, gridSize)
    ensures Binary(g)
    ensures forall y, x :: 0 <= y < gridSize && 0 <= x < gridSize ==>
              (g[y][x] == 1 <==>
                 Cell(x, y) == EgoCell(gridSize, cellSize, ego) || InSomeFootprint(gridSize, cellSize, fill, walls, Cell(x, y)))
    ensures var e := EgoCell(gridSize, cellSize, ego);
            g[e.y][e.x] == 1 &&
            forall y, x :: 0 <= y < gridSize && 0 <= x < gridSize && Cell(x, y) != e ==>
              g[y][x] == WallGrid(gridSize, cellSize, fill, walls)[y][x]
  {
    SetCell(WallGrid(gridSize, cellSize, fill, walls), EgoCell(gridSize, cellSize, ego), 1)
  }
}

=== FILE: parking_lines.dfy ===
/**
  `segment_parking_lines`: cut a large road-line box into individual line
  boxes spaced 2.5 m apart along one axis.  The main generator steps along y
  and emits only the right column; the older test generator steps along x.
 */
module ParkingLines {
  import opened Boxes

  /** `spot_distance`, the step between consecutive lines (metres). */
  const Spacing: real := 2.5

  /**
    The positions `start, start + 2.5, ...` visited by the `while current < end`
    loop.  Their count is the least `n` with `start + 2.5 * n >= end`.
   */
  method LinePositions(start: real, end: real) returns (ps: seq<real>)
    ensures forall k :: 0 <= k < |ps| ==> ps[k] == start + Spacing * k as real
    ensures forall k :: 0 <= k < |ps| ==> start <= ps[k] < end
    ensures start + Spacing * |ps| as real >= end
    ensures end <= start ==> ps == []
  {
    ps := [];
    var current := start;
    while current < end
      invariant current == start + Spacing * |ps| as real
      invariant forall k :: 0 <= k < |ps| ==> ps[k] == start + Spacing * k as real
      invariant forall k :: 0 <= k < |ps| ==> start <= ps[k] < end
      invariant end <= start ==> ps == []
      decreases ((end - current) / Spacing).Floor
    {
      ps := ps + [current];
      current := current + Spacing;
    }
  }

  /** Extent of a main-generator line: `(line_length / 2, line_width / 2, 0.01)` with length 5 and width 0.01. */
  const LineExtentY := Vec3(2.5, 0.005, 0.01)

  /** Extent of an old-generator line: `(line_width / 2, 0.1, 0.01)` with width 0.15. */
  const LineExtentX := Vec3(0.075, 0.1, 0.01)

  /**
    Main generator: lines at `y = start_y + 2.5 * i` over `[start_y, end_y)`,
    all on the right column `x = location.x + (extent.x - 2.5)`.
   */
  method SegmentAlongY(large: Box) returns (lines: seq<Box>)
    ensures forall i :: 0 <= i < |lines| ==>
              lines[i].location.y == large.location.y - large.extent.y + Spacing * i as real
    ensures forall i :: 0 <= i < |lines| ==>
              large.location.y - large.extent.y <= lines[i].location.y < large.location.y + large.extent.y
    ensures large.location.y - large.extent.y + Spacing * |lines| as real >= large.location.y + large.extent.y
    ensures large.extent.y <= 0.0 ==> lines == []
    ensures forall i :: 0 <= i < |lines| ==>
              lines[i] == Box(Vec3(large.location.x + (large.extent.x - 2.5), lines[i].location.y, large.location.z),
                              LineExtentY, NoRotation)
  {
    var ys := LinePositions(large.location.y - large.extent.y, large.location.y + large.extent.y);
    lines := seq(|ys|, i requires 0 <= i < |ys| =>
               Box(Vec3(large.location.x + (large.extent.x - 2.5), ys[i], large.location.z), LineExtentY, NoRotation));
  }

  /**
    Old generator: lines at `x = start_x + 2.5 * i` over `[start_x, end_x)`,
    all at the box's own `y` and `z`.
   */
  method SegmentAlongX(large: Box) returns (lines: seq<Box>)
    ensures forall i :: 0 <= i < |lines| ==>
              lines[i].location.x == large.location.x - large.extent.x + Spacing * i as real
    ensures forall i :: 0 <= i < |lines| ==>
              large.location.x - large.extent.x <= lines[i].location.x < large.location.x + large.extent.x
    ensures large.location.x - large.extent.x + Spacing * |lines| as real >= large.location.x + large.extent.x
    ensures large.extent.x <= 0.0 ==> lines == []
    ensures forall i :: 0 <= i < |lines| ==>
              lines[i] == Box(Vec3(lines[i].location.x, large.location.y, large.location.z), LineExtentX, NoRotation)
  {
    var xs := LinePositions(large.location.x - large.extent.x, large.location.x + large.extent.x);
    lines := seq(|xs|, i requires 0 <= i < |xs| =>
               Box(Vec3(xs[i], large.location.y, large.location.z), LineExtentX, NoRotation));
  }
}

=== FILE: semantic_mask.dfy ===
/**
  `process_semantic_data` of the two segmentation scripts.

  The camera delivers a raw BGRA byte buffer of `height * width * 4` bytes;
  the semantic tag of pixel `(r, c)` is channel 2 (the red byte), at offset
  `(r * width + c) * 4 + 2`.  A pixel is an obstacle iff its tag is one of
  14, 22 or 24.  The second script computes the same mask BEFORE converting
  the buffer to the CityScapes palette, and additionally returns the first
  three channels of the converted buffer for display.
 */
module SemanticMask {
  import opened Grid

  newtype byte = b: int | 0 <= b < 256

  /** The tags treated as obstacles (`obstacle_tags = [14, 22, 24]`). */
  const ObstacleTags: set<byte> := {14, 22, 24}

  /** Channels per pixel in the raw buffer (B, G, R, A). */
  const Channels := 4

  /** The channel holding the semantic tag. */
  const TagChannel := 2

  /**
    Row-major pixel number `r * width + c`, written as repeated addition so
    that the index arithmetic stays linear wherever it is unfolded.
   */
  function PixelNumber(width: nat, r: nat, c: nat): nat
  {
    if r == 0 then c else width + PixelNumber(width, r - 1, c)
  }

  /** Offset of channel `ch` of pixel `(r, c)` in a row-major BGRA buffer. */
  function ByteIndex(width: nat, r: nat, c: nat, ch: nat): nat
  {
    PixelNumber(width, r, c) * Channels + ch
  }

  lemma {:induction false} PixelIsRowMajor(width: nat, r: nat, c: nat)
    ensures PixelNumber(width, r, c) == r * width + c
  {
    if r > 0 {
      PixelIsRowMajor(width, r - 1, c);
    }
  }

  /** Every byte of every pixel lies inside the buffer. */
  lemma ByteIndexInRange(height: nat, width: nat, r: nat, c: nat, ch: nat)
    requires r < height && c < width && ch < Channels
    ensures ByteIndex(width, r, c, ch) < height * width * Channels
  {
    PixelIsRowMajor(width, r, c);
    var p := PixelNumber(width, r, c);
    assert p < height * width by {
      MulMonotone(r + 1, height, width);
    }
    MulMonotone(p + 1, height * width, Channels);
    assert p * Channels + ch < (p + 1) * Channels;
  }

  /** Multiplying by a natural number keeps `<=`. */
  lemma MulMonotone(a: nat, b: nat, k: nat)
    requires a <= b
    ensures a * k <= b * k
  {
  }

  /** Distinct pixels have distinct pixel numbers. */
  lemma {:induction false} PixelInjective(width: nat, r: nat, c: nat, r': nat, c': nat)
    requires c < width && c' < width
    requires PixelNumber(width, r, c) == PixelNumber(width, r', c')
    ensures r == r' && c == c'
  {
    if r > 0 && r' > 0 {
      PixelInjective(width, r - 1, c, r' - 1, c');
    }
  }

  /** A byte offset determines its pixel and its channel. */
  lemma ByteIndexInjective(width: nat, r: nat, c: nat, ch: nat, r': nat, c': nat, ch': nat)
    requires c < width && c' < width && ch < Channels && ch' < Channels
    requires ByteIndex(width, r, c, ch) == ByteIndex(width, r', c', ch')
    ensures r == r' && c == c' && ch == ch'
  {
    PixelInjective(width, r, c, r', c');
  }

  /** `(array[:, :, 2] in obstacle_tags)` as a 0/1 value. */
  function TagBit(raw: seq<byte>, width: nat, r: nat, c: nat): (bit: int)
    requires ByteIndex(width, r, c, TagChannel) < |raw|
  {
    if raw[ByteIndex(width, r, c, TagChannel)] in ObstacleTags then 1 else 0
  }

  /**
    The `height x width` 0/1 obstacle grid: a cell is 1 iff the tag byte of
    its pixel is an obstacle tag.
   */
  function Mask(raw: seq<byte>, height: nat, width: nat): (m: Grid)
    requires |raw| == height * width * Channels
    ensures Shaped(m, height, width)
    ensures ValuesIn(m, {0, 1})
    ensures forall r, c :: 0 <= r < height && 0 <= c < width ==>
              ByteIndex(width, r, c, TagChannel) < |raw| &&
              (m[r][c] == 1 <==> raw[ByteIndex(width, r, c, TagChannel)] in ObstacleTags)
  {
    forall r, c | 0 <= r < height && 0 <= c < width
      ensures ByteIndex(width, r, c, TagChannel) < |raw|
    {
      ByteIndexInRange(height, width, r, c, TagChannel);
    }
    seq(height, r requires 0 <= r < height =>
      seq(width, c requires 0 <= c < width => TagBit(raw, width, r, c)))
  }

  /** Channels 0, 1 and 3 never affect the mask: only the tag bytes are read. */
  lemma MaskReadsOnlyTags(raw: seq<byte>, raw': seq<byte>, height: nat, width: nat)
    requires |raw| == |raw'| == height * width * Channels
    requires forall k :: 0 <= k < |raw| && k % Channels == TagChannel ==> raw[k] == raw'[k]
    ensures Mask(raw, height, width) == Mask(raw', height, width)
  {
    var m, m' := Mask(raw, height, width), Mask(raw', height, width);
    forall r | 0 <= r < height ensures m[r] == m'[r] {
      forall c | 0 <= c < width ensures m[r][c] == m'[r][c] {
        assert m[r][c] in {0, 1} && m'[r][c] in {0, 1};
        assert ByteIndex(width, r, c, TagChannel) % Channels == TagChannel;
      }
    }
  }

  /** Overwriting one byte of the buffer changes at most the cell of the pixel that byte belongs to. */
  lemma MaskIsPerPixel(raw: seq<byte>, height: nat, width: nat, r0: nat, c0: nat, ch: nat, b: byte)
    requires |raw| == height * width * Channels
    requires r0 < height && c0 < width && ch < Channels
    ensures ByteIndex(width, r0, c0, ch) < |raw|
    ensures var m, m' := Mask(raw, height, width), Mask(raw[ByteIndex(width, r0, c0, ch) := b], height, width);
            forall r, c :: 0 <= r < height && 0 <= c < width && (r != r0 || c != c0) ==> m'[r][c] == m[r][c]
  {
    ByteIndexInRange(height, width, r0, c0, ch);
    var k := ByteIndex(width, r0, c0, ch);
    var raw' := raw[k := b];
    var m, m' := Mask(raw, height, width), Mask(raw', height, width);
    forall r, c | 0 <= r < height && 0 <= c < width && (r != r0 || c != c0)
      ensures m'[r][c] == m[r][c]
    {
      var t := ByteIndex(width, r, c, TagChannel);
      if t == k {
        ByteIndexInjective(width, r, c, TagChannel, r0, c0, ch);
      }
      assert raw'[t] == raw[t];
    }
  }

  /** One display pixel: the first three channels (B, G, R) of a buffer pixel. */
  type Pixel = seq<byte>

  /** `array[:, :, :3]` of a BGRA buffer: the alpha channel is dropped. */
  function DropAlpha(buf: seq<byte>, height: nat, width: nat): (v: seq<seq<Pixel>>)
    requires |buf| == height * width * Channels
    ensures |v| == height
    ensures forall r :: 0 <= r < height ==> |v[r]| == width
    ensures forall r, c :: 0 <= r < height && 0 <= c < width ==>
              ByteIndex(width, r, c, 3) < |buf| &&
              v[r][c] == buf[ByteIndex(width, r, c, 0) .. ByteIndex(width, r, c, 3)]
  {
    forall r, c | 0 <= r < height && 0 <= c < width
      ensures ByteIndex(width, r, c, 0) + 3 == ByteIndex(width, r, c, 3) < |buf|
    {
      ByteIndexInRange(height, width, r, c, 3);
    }
    seq(height, r requires 0 <= r < height =>
      seq(width, c requires 0 <= c < width => buf[ByteIndex(width, r, c, 0) .. ByteIndex(width, r, c, 3)]))
  }

  /** The alpha bytes never reach the display image. */
  lemma DropAlphaIgnoresAlpha(buf: seq<byte>, buf': seq<byte>, height: nat, width: nat)
    requires |buf| == |buf'| == height * width * Channels
    requires forall k :: 0 <= k < |buf| && k % Channels != 3 ==> buf[k] == buf'[k]
    ensures DropAlpha(buf, height, width) == DropAlpha(buf', height, width)
  {
    var v, v' := DropAlpha(buf, height, width), DropAlpha(buf', height, width);
    forall r | 0 <= r < height ensures v[r] == v'[r] {
      forall c | 0 <= c < width ensures v[r][c] == v'[r][c] {
        var base := ByteIndex(width, r, c, 0);
        assert |v[r][c]| == 3 == |v'[r][c]|;
        forall ch | 0 <= ch < 3 ensures v[r][c][ch] == v'[r][c][ch] {
          assert (base + ch) % Channels == ch;
        }
      }
    }
  }

  /**
    `process_semantic_data` of segmentation_occupation_grid.py: the obstacle
    grid is taken from the raw buffer before `image.convert` rewrites it with
    palette colours, so it is exactly the mask of the raw buffer whatever the
    palette conversion does; the display array is the converted buffer
    without its alpha channel.
   */
  function ProcessForDisplay(raw: seq<byte>, height: nat, width: nat, convert: seq<byte> -> seq<byte>)
    : (out: (seq<seq<Pixel>>, Grid))
    requires |raw| == height * width * Channels
    requires |convert(raw)| == |raw|
    ensures out.1 == Mask(raw, height, width)
    ensures out.0 == DropAlpha(convert(raw), height, width)
  {
    var obstacle := Mask(raw, height, width);
    (DropAlpha(convert(raw), height, width), obstacle)
  }
}

=== FILE: viewport.dfy ===
/**
  The viewport of `visualize_grid_animated`: the ego cells are found with
  `np.where(current_grid == 2)`, their mean row and column give the view
  center, and a `context_size`-wide window around it is clamped to the grid
  and pushed flush against an edge when it comes within 10 cells of it.
 */
module Viewport {
  import opened Wrappers
  import opened Coords
  import opened Grid
  import opened ObstacleList

  function Sum(s: seq<int>): int
  {
    if |s| == 0 then 0 else Sum(s[..|s| - 1]) + s[|s| - 1]
  }

  lemma {:induction false} SumBounds(s: seq<int>, lo: int, hi: int)
    requires forall i :: 0 <= i < |s| ==> lo <= s[i] <= hi
    ensures lo * |s| <= Sum(s) <= hi * |s|
  {
    if |s| > 0 {
      var n := |s| - 1;
      SumBounds(s[..n], lo, hi);
      assert Sum(s) == Sum(s[..n]) + s[n];
      assert lo * |s| == lo * n + lo && hi * |s| == hi * n + hi;
    }
  }

  /** `ndarray.mean()` over exact reals: lies between the least and greatest possible element. */
  function Mean(s: seq<int>, ghost lo: int, ghost hi: int): (m: real)
    requires |s| > 0
    requires forall i :: 0 <= i < |s| ==> lo <= s[i] <= hi
    ensures lo as real <= m <= hi as real
  {
    SumBounds(s, lo, hi);
    RealDivBounds(lo as real, hi as real, Sum(s) as real, |s| as real);
    Sum(s) as real / |s| as real
  }

  /** Dividing by a positive count keeps a sum bounded by `lo * n` and `hi * n` within `[lo, hi]`. */
  lemma RealDivBounds(lo: real, hi: real, sum: real, n: real)
    requires n > 0.0
    requires lo * n <= sum <= hi * n
    ensures lo <= sum / n <= hi
  {
    var q := sum / n;
    assert q * n == sum;
    assert lo * n <= q * n <= hi * n;
  }

  /** How close to an edge (in cells) the window may come before it is pushed flush. */
  const Margin := 10

  /** The view window `[start, end)` on one axis. */
  datatype Window = Window(start: int, end: int)

  /** `max(0, int(center - context_size // 2))`. */
  function FirstStart(center: real, context: nat): (r: int)
    ensures 0 <= r && Trunc(center - (context / 2) as real) <= r
    ensures r == 0 || r == Trunc(center - (context / 2) as real)
  {
    var t := Trunc(center - (context / 2) as real);
    if t < 0 then 0 else t
  }

  /** `min(shape, int(center + context_size // 2))`. */
  function FirstEnd(center: real, shape: nat, context: nat): (r: int)
    ensures r <= shape && r <= Trunc(center + (context / 2) as real)
    ensures r == shape || r == Trunc(center + (context / 2) as real)
  {
    var t := Trunc(center + (context / 2) as real);
    if t < shape then t else shape
  }

  /** Before the edge rules, a center on the grid gives `start0 <= end0` with both inside `[0, shape]`. */
  lemma FirstWindowOrdered(center: real, shape: nat, context: nat)
    ensures 0.0 <= center <= shape as real ==> FirstStart(center, context) <= FirstEnd(center, shape, context)
  {
    if 0.0 <= center <= shape as real {
      TruncMonotone(center - (context / 2) as real, center + (context / 2) as real);
      TruncMonotone(center - (context / 2) as real, shape as real);
      TruncTowardZero(center + (context / 2) as real);
      TruncOfInt(shape);
    }
  }

  /**
    `if end >= shape - 10`: the window is shifted down by how far its end
    reaches into the margin (its start clamped at 0) and its end snaps to
    `shape`.  Otherwise it is left alone.
   */
  function NearEndRule(w: Window, shape: nat): (r: Window)
    ensures w.end >= shape - Margin ==>
              r.end == shape &&
              r.start == (if w.start - (w.end - (shape - Margin)) < 0 then 0 else w.start - (w.end - (shape - Margin)))
    ensures w.end < shape - Margin ==> r == w
    ensures 0 <= w.start ==> 0 <= r.start
    ensures w.end <= shape ==> r.end <= shape
    ensures w.start <= w.end <= shape ==> r.start <= r.end
  {
    if w.end >= shape - Margin then
      var shift := w.end - (shape - Margin);
      Window(if w.start - shift < 0 then 0 else w.start - shift, shape)
    else w
  }

  /**
    `if start <= 10`: the window's end is pushed up by how far its start
    reaches into the margin (clamped at `shape`) and its start snaps to 0.
    Otherwise it is left alone.
   */
  function NearStartRule(w: Window, shape: nat): (r: Window)
    ensures w.start <= Margin ==>
              r.start == 0 &&
              r.end == (if w.end + (Margin - w.start) < shape then w.end + (Margin - w.start) else shape)
    ensures w.start > Margin ==> r == w
    ensures 0 <= w.start ==> 0 <= r.start
    ensures w.end <= shape ==> r.end <= shape
    ensures 0 <= w.start <= w.end ==> r.start <= r.end
  {
    if w.start <= Margin then
      var shift := Margin - w.start;
      Window(0, if w.end + shift < shape then w.end + shift else shape)
    else w
  }

  /** The first window, `[max(0, ...), min(shape, ...))`, before the edge rules. */
  function FirstWindow(center: real, shape: nat, context: nat): Window
  {
    Window(FirstStart(center, context), FirstEnd(center, shape, context))
  }

  /**
    The window on one axis after both edge adjustments, applied in the
    source's order: the near-end rule first, then the near-start rule on the
    window the first rule produced.  The window stays inside `[0, shape]`;
    the near-end rule makes it end at `shape`; the near-start rule fires on
    the shifted start and makes the window start at 0; when the center lies
    on the grid the window is never inverted.
   */
  function AxisWindow(center: real, shape: nat, context: nat): (w: Window)
    ensures 0 <= w.start && w.end <= shape
    ensures FirstEnd(center, shape, context) >= shape - Margin ==> w.end == shape
    ensures var w1 := NearEndRule(FirstWindow(center, shape, context), shape);
            (w1.start <= Margin ==> w.start == 0) &&
            (w1.start <= Margin ==> w.end == (if w1.end + (Margin - w1.start) < shape then w1.end + (Margin - w1.start) else shape)) &&
            (w1.start > Margin ==> w == w1)
    ensures FirstStart(center, context) <= Margin ==> w.start == 0
    ensures FirstEnd(center, shape, context) < shape - Margin && FirstStart(center, context) > Margin ==>
              w == FirstWindow(center, shape, context)
    ensures 0.0 <= center <= shape as real ==> w.start <= w.end
  {
    FirstWindowOrdered(center, shape, context);
    NearStartRule(NearEndRule(FirstWindow(center, shape, context), shape), shape)
  }

  /**
    An ego near the low edge of a 500-cell axis with a 200-cell context:
    the start snaps to 0 and the end moves out by the 10 cells the start
    was short of the margin, to 160 rather than to the far edge.
   */
  lemma NearLowEdgeWindow()
    ensures AxisWindow(50.0, 500, 200) == Window(0, 160)
  {
    assert FirstStart(50.0, 200) == 0 by { TruncOfInt(-50); }
    assert FirstEnd(50.0, 500, 200) == 150 by { TruncOfInt(150); }
  }

  /** The window of a 30-cell axis with a 10-cell context around 16: the near-end shift brings the start into the margin. */
  lemma ShiftedStartSnapsToZero()
    ensures NearEndRule(FirstWindow(16.0, 30, 10), 30) == Window(10, 30)
    ensures AxisWindow(16.0, 30, 10) == Window(0, 30)
  {
    assert FirstStart(16.0, 10) == 11 by { TruncOfInt(11); }
    assert FirstEnd(16.0, 30, 10) == 21 by { TruncOfInt(21); }
  }

  /** The rows and columns of the view, or `None` when no ego cell is visible and the whole grid is shown. */
  datatype View = View(rows: Window, cols: Window)

  /**
    One frame of the viewport logic: locate the ego cells, average them and
    clamp a window around the average.  The slice `colored_grid[start_y:end_y,
    start_x:end_x]` is then always a well-formed sub-grid.
   */
  method EgoView(g: Grid, context: nat) returns (v: Option<View>)
    requires Rectangular(g)
    ensures v.None? <==> forall y, x :: 0 <= y < |g| && 0 <= x < |g[y]| ==> g[y][x] != 2
    ensures v.Some? ==> 0 <= v.value.rows.start <= v.value.rows.end <= |g|
    ensures v.Some? ==> 0 <= v.value.cols.start <= v.value.cols.end <= Cols(g)
    ensures v.Some? ==> exists cy: real, cx: real ::
              0.0 <= cy <= (|g| - 1) as real && 0.0 <= cx <= (Cols(g) - 1) as real &&
              v.value == View(AxisWindow(cy, |g|, context), AxisWindow(cx, Cols(g), context))
  {
    var xs, ys := Scan(g, 2);
    if |ys| == 0 {
      v := None;
      return;
    }
    assert g[ys[0]][xs[0]] == 2;
    var cy := Mean(ys, 0, |g| - 1);
    assert 0 < |g| && |g[0]| == Cols(g);
    var cx := Mean(xs, 0, Cols(g) - 1);
    v := Some(View(AxisWindow(cy, |g|, context), AxisWindow(cx, Cols(g), context)));
    assert 0.0 <= cy <= (|g| - 1) as real && 0.0 <= cx <= (Cols(g) - 1) as real;
  }
}

=== FILE: wrappers.dfy ===
/** Optional values, used where the scripts use `None`. */
module Wrappers {

  datatype Option<+T> = None | Some(value: T)
}
